=== FILE: README.md ===
# Countdown numbers-game solver, in Dafny

This project models the solver of the Countdown numbers game (`uk.org.thehickses.countdown.Solver`).
A game is a target from 100 to 999 and a list of source numbers, each 1 to 10 (at most
twice) or 25, 50, 75 or 100 (at most once); the program sets no limit on how many there
are, so a valid game has up to 24, and a randomly dealt one has six. The solver looks for an
arithmetic expression over some of the source numbers, each used at most as often as it is
given, whose value is as close to the target as possible and at most 10 away. Among equally
close expressions it prefers one that uses fewer numbers.

The model follows the program's stages, one module each:

- `Expressions`: the `Expression` value (a leaf holding a source number, or a node joining
  two operands with an operator), the four operators with their symbols, priorities,
  commutativity and integer evaluation (Java's `/` truncates toward zero), and the numbers an
  expression consumes. Java's node constructor throws on a division by zero; the model's
  `Eval` yields `None` there and `WellFormed` names the expressions that can exist.
- `Combiners`: each operator's veto on the left operand alone and on the (left, right) pair,
  the combiners a left operand admits (in the order add, subtract, multiply, divide), and
  `Combine`, which builds a node or refuses the pair.
- `Permutations`: `permute`/`permuteAt` with the per-call seen-value set, as recursive
  functions that thread the set of values already chosen first.
- `Builder`: `expressions`/`expressionsAt`/`expressionsUsing`, including the filter that keeps
  the first expression met for each value.
- `Selector`: `findBetter` and the `reduce(null, …)` fold, modelled as a fold from the left
  over the candidates in encounter order.
- `Search`: `findSolution`, with the theorems about the result.
- `Validation`: the checks `instance(int[])` makes on the target and the source numbers,
  returning a `Result` whose failure names the `IllegalArgumentException` the program raises.
- `Rendering`: `toString` with its minimal brackets.
- `Reading`: a reader for the printed text under the usual conventions of arithmetic. It is
  the partner of `Render`: the text of an expression reads back as the expression's value.

Main results:

- `Search.FindSolutionCorrect`: the result is absent exactly when no candidate comes within
  10 of the target. Otherwise it is a candidate within 10 that uses the source numbers no
  more often than given, and no candidate is nearer or as near with fewer numbers.
- `Search.FindSolutionOptimal`: no admissible expression beats the result. An expression is
  admissible when it is built from the source numbers by steps the combiners accept. This
  holds although the builder discards expressions whose value it has already met.
- `Selector.ReduceAppend`: reducing two consecutive parts and combining the two results is
  the same as reducing the whole, so the way a parallel stream splits the candidates does not
  change the solution.
- `Reading.SolutionReadsBack`: the printed solution, read with the usual precedence and
  grouping, evaluates to the solution's value.

The search is stated for positive source numbers, the only ones validation admits
(`Validation.ValidatedPositive`). Zero and negative numbers are excluded for that reason.
With a zero the Java solver may throw: the divide combiner evaluates `x % 0` when a left
value other than 1 meets a zero-valued right operand. That does not happen for every game
with a zero, since a left value of 1 has no divide combiner and a right value of 1 is
refused before the `%`. Negative numbers raise no exception in Java.

## Model

| member | source | states |
|---|---|---|
| Expressions.TruncatedDiv | src/main/java/uk/org/thehickses/countdown/Solver.java:317 | Java's `a / b`: the remainder is smaller than the divisor in magnitude and has the dividend's sign, and the quotient is exact when the divisor divides the dividend |
| Expressions.ConstructorInvariants | src/main/java/uk/org/thehickses/countdown/Solver.java:269-284 | a leaf has value n, numbers [n] and atomic priority; a node exists exactly when its operands exist and it does not divide by zero, and its value is the operator applied to the operand values, its numbers are the left numbers followed by the right numbers, and its priority is the operator's |
| Expressions.Operator.Symbol | src/main/java/uk/org/thehickses/countdown/Solver.java:314-317 | the symbols `+`, `-`, `*`, `/` |
| Expressions.Operator.Priority | src/main/java/uk/org/thehickses/countdown/Solver.java:314-317 | add and subtract have low priority, multiply and divide high |
| Expressions.Operator.Commutative | src/main/java/uk/org/thehickses/countdown/Solver.java:314-317 | add and multiply are commutative, subtract and divide are not |
| Expressions.Operator.Evaluate | src/main/java/uk/org/thehickses/countdown/Solver.java:314-317 | sum, difference, product, and the truncating quotient `TruncatedDiv` for divide, defined for a non-zero divisor |
| Expressions.Eval | src/main/java/uk/org/thehickses/countdown/Solver.java:269-284 | a leaf's value is its number; a node's is its operator applied to its operands' values (`evaluate`, lines 333-336), and a node dividing by zero, where the Java constructor throws, has none |
| Expressions.Numbers | src/main/java/uk/org/thehickses/countdown/Solver.java:281-283 | an expression consumes at least one number and a node at least two |
| Combiners.LeftVeto | src/main/java/uk/org/thehickses/countdown/Solver.java:349-389 | the test each combiner creator makes on the left value alone: none for add, below 3 for subtract, equal to 1 for multiply and divide (lines 356, 368, 380) |
| Combiners.PairVeto | src/main/java/uk/org/thehickses/countdown/Solver.java:349-389 | the test each combiner makes on the pair: none for add; left <= right or left = 2·right for subtract; right = 1 for multiply; right = 1, right not dividing left, or left = right² for divide (lines 360, 372, 384-385) |
| Combiners.CombinersUsing | src/main/java/uk/org/thehickses/countdown/Solver.java:391-401 | an operator's combiner is admitted for a left operand exactly when its left veto does not hold, in the order add, subtract, multiply, divide |
| Combiners.Combine | src/main/java/uk/org/thehickses/countdown/Solver.java:349-389 | add always combines; subtract exactly when left >= 3, left > right and left != 2*right; multiply exactly when neither operand is 1; divide exactly when neither operand is 1, right divides left and left != right*right; a result is the node of the two operands |
| Combiners.CombinedValue | src/main/java/uk/org/thehickses/countdown/Solver.java:349-389 | from positive operands the divide check never divides by zero, and every combined value is positive and exact: the sum, difference or product, or a quotient without remainder |
| Combiners.NoOperandEcho | src/main/java/uk/org/thehickses/countdown/Solver.java:354-389 | from positive operands no combined value equals either operand's value |
| Combiners.SubtractFloorRedundant | src/main/java/uk/org/thehickses/countdown/Solver.java:356-361 | for positive operands, a left operand below 3 is always refused by the pair test too |
| Permutations.Permute | src/main/java/uk/org/thehickses/countdown/Solver.java:179-190 | every selection is non-empty and made of existing expressions |
| Permutations.PermuteFrom | src/main/java/uk/org/thehickses/countdown/Solver.java:185-189 | the selections of the loop start with a value not yet chosen first |
| Permutations.PermuteAt | src/main/java/uk/org/thehickses/countdown/Solver.java:192-200 | every selection starts with item i |
| Permutations.PermuteSelects | src/main/java/uk/org/thehickses/countdown/Solver.java:179-190 | every selection has at most n items and is a sub-multiset of the items |
| Permutations.PermuteFromSelects | src/main/java/uk/org/thehickses/countdown/Solver.java:185-189 | every selection of the loop is a sub-multiset of the items |
| Permutations.PermuteAtSelects | src/main/java/uk/org/thehickses/countdown/Solver.java:192-200 | item i before a selection of the other items is a sub-multiset of the items |
| Permutations.Others | src/main/java/uk/org/thehickses/countdown/Solver.java:194-196 | exactly the items other than item i, in their original order: one fewer, item i's removal from the multiset, each position after i shifted down by one |
| Permutations.PermuteDistinct | src/main/java/uk/org/thehickses/countdown/Solver.java:179-206 | no two selections are equal as sequences of values |
| Permutations.PermuteFromDistinct | src/main/java/uk/org/thehickses/countdown/Solver.java:185-189 | no two selections of the loop are equal as sequences of values |
| Permutations.PermuteAtDistinct | src/main/java/uk/org/thehickses/countdown/Solver.java:192-200 | no two selections starting with item i are equal as sequences of values |
| Permutations.PermuteComplete | src/main/java/uk/org/thehickses/countdown/Solver.java:179-206 | every non-empty arrangement of a sub-multiset of the item values is emitted |
| Permutations.Emitted | src/main/java/uk/org/thehickses/countdown/Solver.java:179-190 | names the emitted selection whose values are a given arrangement |
| Permutations.EmittedAt | src/main/java/uk/org/thehickses/countdown/Solver.java:192-200 | an arrangement starting with item i's value is emitted by `permuteAt(i, …)` |
| Permutations.ChosenFirst | src/main/java/uk/org/thehickses/countdown/Solver.java:185-189 | the first position holding a value not yet chosen first is not filtered out, so everything `permuteAt` emits there is emitted by the loop |
| Builder.FirstByValue | src/main/java/uk/org/thehickses/countdown/Solver.java:202-206 | the filter keeps no two items with one value and none with a value already seen, and loses no value not seen before |
| Builder.FirstByValueSubset | src/main/java/uk/org/thehickses/countdown/Solver.java:202-206 | the filter keeps only items of the input |
| Builder.FirstByValueOrder | src/main/java/uk/org/thehickses/countdown/Solver.java:212-215 | the filter keeps the items it passes in input order (a subsequence of the input) |
| Builder.FirstSeenWins | src/main/java/uk/org/thehickses/countdown/Solver.java:215 | of the expressions with one value, the first met is the one kept |
| Builder.ApplyCombiners | src/main/java/uk/org/thehickses/countdown/Solver.java:229-232 | the results are exactly the nodes of the pair under the given operators that the combiners accept, all positive |
| Builder.CombineLeft | src/main/java/uk/org/thehickses/countdown/Solver.java:227-233 | the results are exactly the accepted nodes of the left operand with any of the right operands |
| Builder.CombinePairs | src/main/java/uk/org/thehickses/countdown/Solver.java:218-225 | every result from positive operands is positive |
| Builder.CombinePairsMembers | src/main/java/uk/org/thehickses/countdown/Solver.java:218-225 | the results are exactly the accepted nodes of any left operand with any right operand |
| Builder.ExpressionsFor | src/main/java/uk/org/thehickses/countdown/Solver.java:208-216 | a single item yields itself; every result is positive and consumes exactly the selection's numbers in order |
| Builder.ExpressionsDistinct | src/main/java/uk/org/thehickses/countdown/Solver.java:208-216 | no two results of `expressions` share a value |
| Builder.Splits | src/main/java/uk/org/thehickses/countdown/Solver.java:212-214 | every result over the splits is positive and consumes exactly the selection's numbers |
| Builder.SplitResults | src/main/java/uk/org/thehickses/countdown/Solver.java:212-214 | one entry per position; entry j, for each interior split j, holds exactly the results of that split |
| Builder.InSplits | src/main/java/uk/org/thehickses/countdown/Solver.java:212-214 | a result of any one interior split is among the results over all splits |
| Builder.FromSplit | src/main/java/uk/org/thehickses/countdown/Solver.java:212-214 | every result over all splits is a result of one interior split |
| Builder.ExpressionsAt | src/main/java/uk/org/thehickses/countdown/Solver.java:218-225 | every result is positive and consumes exactly the selection's numbers in order |
| Builder.ExpressionsAtMembers | src/main/java/uk/org/thehickses/countdown/Solver.java:218-225 | the results are exactly the accepted nodes of a result for the left part with a result for the right part |
| Builder.ExpressionsComplete | src/main/java/uk/org/thehickses/countdown/Solver.java:208-225 | every value a combiner produces from a left-part result and a right-part result, at any interior split, is the value of a result |
| Builder.ExpressionsSound | src/main/java/uk/org/thehickses/countdown/Solver.java:208-225 | every result of two or more items is an accepted node over one interior split |
| Selector.Difference | src/main/java/uk/org/thehickses/countdown/Solver.java:306-309 | `differenceFrom`: the absolute difference between the target and the value |
| Selector.FindBetter | src/main/java/uk/org/thehickses/countdown/Solver.java:240-253 | absent when neither argument is within 10; the only qualifying argument when just one is; otherwise the nearer, then the one with fewer numbers, the first on a full tie |
| Selector.FindBetterAssociative | src/main/java/uk/org/thehickses/countdown/Solver.java:235-253 | `findBetter` is associative |
| Selector.FindBetterIdentity | src/main/java/uk/org/thehickses/countdown/Solver.java:176 | null, the starting value of the reduction, is its identity on absent or qualifying arguments |
| Selector.Reduce | src/main/java/uk/org/thehickses/countdown/Solver.java:176 | absent exactly when no candidate is within 10; otherwise a qualifying candidate at least as good as every qualifying candidate |
| Selector.ReduceAppend | src/main/java/uk/org/thehickses/countdown/Solver.java:173-176 | combining the reductions of two consecutive parts gives the reduction of the whole |
| Selector.ReduceFirst | src/main/java/uk/org/thehickses/countdown/Solver.java:250-252 | of the best candidates the first met is chosen |
| Selector.ReduceReorder | src/main/java/uk/org/thehickses/countdown/Solver.java:173-176 | reordering or repeating the candidates does not change whether there is a solution, nor its difference or number count |
| Search.Leaves | src/main/java/uk/org/thehickses/countdown/Solver.java:173-174 | one leaf per source number, in order |
| Search.SelectionOfLeaves | src/main/java/uk/org/thehickses/countdown/Solver.java:173-175 | a selection of the leaves of positive source numbers holds positive leaves only |
| Search.Candidates | src/main/java/uk/org/thehickses/countdown/Solver.java:175 | every expression over every selection is a candidate |
| Search.CandidateSource | src/main/java/uk/org/thehickses/countdown/Solver.java:175 | every candidate is an expression over one of the selections |
| Search.AllCandidates | src/main/java/uk/org/thehickses/countdown/Solver.java:173-175 | the candidates of positive source numbers are positive |
| Search.FindSolution | src/main/java/uk/org/thehickses/countdown/Solver.java:171-177 | the result is absent or within 10 of the target |
| Search.FindSolutionCorrect | src/main/java/uk/org/thehickses/countdown/Solver.java:171-177 | absent exactly when no candidate is within 10; otherwise a candidate within 10, using a sub-multiset of the source numbers, at least as good as every candidate within 10 |
| Search.CandidateNumbers | src/test/java/uk/org/thehickses/countdown/SolverTest.java:68-77 | every candidate uses a sub-multiset of the source numbers |
| Search.TargetAmongNumbers | src/test/java/uk/org/thehickses/countdown/SolverTest.java:57-67 | when the target is a source number, the solution has difference 0 and uses one number |
| Search.FindSolutionOptimal | src/main/java/uk/org/thehickses/countdown/Solver.java:171-177 | if an admissible expression over the source numbers is within 10, a solution exists and is at least as good |
| Search.CandidateFor | src/main/java/uk/org/thehickses/countdown/Solver.java:173-225 | every admissible expression over the source numbers has a candidate of the same value and number count |
| Search.BuilderComplete | src/main/java/uk/org/thehickses/countdown/Solver.java:208-225 | for every admissible expression over exactly the given leaves, the builder yields one of the same value and number count |
| Search.ExpressionsAdmissible | src/main/java/uk/org/thehickses/countdown/Solver.java:208-233 | everything the builder yields from positive leaves is admissible |
| Search.SolutionAdmissible | src/main/java/uk/org/thehickses/countdown/Solver.java:171-177 | the solution is admissible |
| Search.AdmissiblePositive | src/main/java/uk/org/thehickses/countdown/Solver.java:349-389 | an admissible expression is positive |
| Search.CombineByValue | src/main/java/uk/org/thehickses/countdown/Solver.java:349-389 | whether a combiner accepts a pair, and the resulting value, depend only on the operand values |
| Validation.ValidSourceNumber | src/main/java/uk/org/thehickses/countdown/Solver.java:127-133 | the negation of the rejection test in `validateSourceNumber`: below 1, above 100, or above 10 and not a multiple of 25 |
| Validation.CountAllowed | src/main/java/uk/org/thehickses/countdown/Solver.java:135-145 | the negation of the two rejections in `validateSourceNumberCount`: a number up to 10 more than twice, a larger one more than once |
| Validation.ValidSourceNumberMeaning | src/main/java/uk/org/thehickses/countdown/Solver.java:127-133 | a source number is accepted exactly when it is 1 to 10, 25, 50, 75 or 100 |
| Validation.Occurrences | src/main/java/uk/org/thehickses/countdown/Solver.java:119-120 | the count per number is the number's multiplicity |
| Validation.FirstInvalid | src/main/java/uk/org/thehickses/countdown/Solver.java:116-117 | the position of the first rejected source number, every earlier one accepted |
| Validation.FirstOverused | src/main/java/uk/org/thehickses/countdown/Solver.java:135-145 | the position of a number occurring more often than allowed, none earlier doing so |
| Validation.Validate | src/main/java/uk/org/thehickses/countdown/Solver.java:109-125 | success exactly when the target is 100 to 999, every source number is accepted and no small number occurs more than twice nor large number more than once, with the solver of those arguments; each failure names a reason that holds |
| Validation.ValidatedPositive | src/main/java/uk/org/thehickses/countdown/Solver.java:127-133 | the source numbers of a validated game are positive |
| Rendering.DecimalDigits | src/main/java/uk/org/thehickses/countdown/Solver.java:275 | `%d` of a non-negative number: digits without a leading zero that read back as the number |
| Rendering.Decimal | src/main/java/uk/org/thehickses/countdown/Solver.java:275 | `%d`: a non-negative number is its digits without a leading zero, reading back as the number; a negative one is a minus sign before such digits of its magnitude |
| Rendering.LeftParenthesised | src/main/java/uk/org/thehickses/countdown/Solver.java:286-287 | a left operand is bracketed when its priority is below the operator's |
| Rendering.RightParenthesised | src/main/java/uk/org/thehickses/countdown/Solver.java:288-291 | a right operand is bracketed when its priority is below the operator's, or equal to it under a non-commutative operator |
| Rendering.Render | src/main/java/uk/org/thehickses/countdown/Solver.java:285-292 | the text of an expression is non-empty; its meaning is stated by Reading.RenderReadsBack |
| Rendering.RenderOperand | src/main/java/uk/org/thehickses/countdown/Solver.java:295-298 | an operand's text is non-empty; what it says, bracketed or not, is stated by Reading.LexOperand and Reading.ParseBracketed |
| Reading.OperatorOf | src/main/java/uk/org/thehickses/countdown/Solver.java:314-317 | a character stands for an operator exactly when it is one of `+-*/`, and then for the operator with that symbol |
| Reading.DigitRun | src/main/java/uk/org/thehickses/countdown/Solver.java:275 | the length of the leading run of digits |
| Reading.LexRender | src/main/java/uk/org/thehickses/countdown/Solver.java:285-292 | for unsigned numbers, the printed text, its spaces dropped, splits into the expression's tokens: numbers, operator symbols and the brackets the priorities call for |
| Reading.LexOperand | src/main/java/uk/org/thehickses/countdown/Solver.java:295-298 | an operand's text splits into its tokens, inside brackets when bracketed |
| Reading.ParseBracketed | src/main/java/uk/org/thehickses/countdown/Solver.java:295-298 | a bracketed operand reads as one atom with its value |
| Reading.ParseSumOperand | src/main/java/uk/org/thehickses/countdown/Solver.java:285-292 | an operand reads as a sum with its value |
| Reading.SumTailOperand | src/main/java/uk/org/thehickses/countdown/Solver.java:286-291 | after a running total, `+` or `-` and an operand apply the operator, which the right-bracket rule keeps correct |
| Reading.ParseProductOperand | src/main/java/uk/org/thehickses/countdown/Solver.java:285-292 | an operand binding as tightly as a product reads as a product with its value |
| Reading.ProductTailOperand | src/main/java/uk/org/thehickses/countdown/Solver.java:286-291 | after a running product, `*` or `/` and an operand apply the operator, exact divisions making the unbracketed `a * b / c` correct |
| Reading.Reassociate | src/main/java/uk/org/thehickses/countdown/Solver.java:317 | multiplying before an exact division equals multiplying after it |
| Reading.RenderReadsBack | src/main/java/uk/org/thehickses/countdown/Solver.java:285-298 | the text of an expression with unsigned numbers and exact divisions reads back as its value |
| Reading.AdmissiblePrintable | src/main/java/uk/org/thehickses/countdown/Solver.java:378-388 | an admissible expression has unsigned numbers and exact divisions |
| Reading.SolutionReadsBack | src/main/java/uk/org/thehickses/countdown/Solver.java:171-177 | the printed solution reads back as the solution's value |
| Reading.TokensListNumbers | src/main/java/uk/org/thehickses/countdown/Solver.java:281-292 | the numbers printed, left to right, are the numbers the expression consumes |

## Left out

- `main`, `run`, `solve`'s logging and `TimedResult`'s timing: process exit, logging and clock I/O.
- `instance(int)` and `selectRandomSourceNumbers`: random choice of a game.
- `instance(String[])`, `validateArg` and `Integer.parseInt`: parsing of command-line strings.
- `.parallel()`: the fold is sequential. `Selector.ReduceAppend` and `Selector.FindBetterAssociative` give the associativity a parallel reduction relies on. In Java the whole pipeline runs in parallel, including the top-level `permute` filter, which shares one unsynchronised `HashSet` between threads. Which of two equal-valued positions passes then depends on timing, and a lost `add` can let both through. At that level the items are leaves, and equal-valued leaves are equal expressions. So timing changes only the order of the candidates, repeats some of them, and decides which of several full ties is returned. `Selector.Reduce`'s contract depends only on which candidates occur (`Selector.ReduceReorder`), so the rank of the solution is unchanged.
- Java's 32-bit `int` overflow: values are unbounded integers. With six source numbers every expression value stays below 2^31: the largest product, 100·75·50·25·10·10, is 937500000. Larger valid games (up to 24 numbers) can exceed it, and Java would then wrap where the model does not. The divide veto computes `expr2.value * expr2.value` only once right divides left, so only when right ≤ left. The value of an expression over a multiset of numbers is at most the product of max(x, 2) over them, so then right² ≤ left·right ≤ 937500000 in a six-number game, and the square cannot wrap there. It can wrap in a larger game, for example a right of 75·50·25 = 93750 dividing a left of 100·10·10·5·5·3 = 750000. Even then the wrap cannot change the veto. Take 0 < left < 2^31, with right dividing left, so left = right·m. If the true square equals left, it is below 2^31 and does not wrap. Suppose instead the wrapped square equals left while the true one does not. Then right·(right − m) is a non-zero multiple of 2^32. Write right = 2^a·u and m = 2^b·w with u and w odd. When a ≠ b, both a and b must be at least 32 − a, so left ≥ 2^32. When a = b, 2^(32−2a) must divide u − w ≠ 0, but |u − w| < u·w < 2^(31−2a). The model states the veto on unbounded integers; this argument is not mechanised.
- Search.FindSolution: requires positive source numbers, the only ones validation admits. The Java solver can be constructed with any numbers. With a zero it throws only when the divide combiner of a left value other than 1 meets a zero-valued right operand. With negative numbers it runs without an exception, and the model says nothing about that case.
- Validation.Validate: when several numbers occur too often, Java reports the first in `HashMap` iteration order. The model reports the first in input order. The contract states only that the reported number is one that occurs too often.
- Rendering.Decimal and Rendering.DecimalDigits: `String.format("%d", …)` formats with the default format locale, which may replace the ASCII digits with its own (Thai digits under `th-TH-u-nu-thai`, for example). The model fixes that locale to one whose zero digit is `'0'`, as the root and English locales and most others are. `Reading.RenderReadsBack` and `Reading.SolutionReadsBack` are stated for that text.
- Validation.Validate: requires at least one argument. Java reads `nums[0]`, and its only caller passes at least two.
- The `web` package: web-server and template plumbing.
- `SolverTestSteps.java`: it tests another solver class, which is not part of this model.

=== FILE: builder.dfy ===
/** The expression builder (`expressions`, `expressionsAt`, `expressionsUsing`, and the
    `usedChecker` filter of `expressions`): every way of splitting a selection into two
    contiguous parts, combining each left result with each right result through every
    combiner that accepts the pair, and keeping the first expression seen for each value. */
module Builder {
  import opened Wrappers
  import opened Expressions
  import opened Combiners

  predicate AllPositive(s: seq<Expression>) {
    forall e <- s :: Positive(e)
  }

  /** The set of values of a sequence of expressions. */
  function ValueSet(s: seq<Expression>): set<int>
    requires AllWellFormed(s)
  {
    set e | e in s :: Value(e)
  }

  predicate DistinctValues(s: seq<Expression>)
    requires AllWellFormed(s)
  {
    forall j, k :: 0 <= j < k < |s| ==> Value(s[j]) != Value(s[k])
  }

  /** The filter `usedChecker().negate()`: an expression passes when its value has not been
      seen before; `used` is the set of values seen so far. */
  function FirstByValue(s: seq<Expression>, used: set<int>): (r: seq<Expression>)
    requires AllWellFormed(s)
    ensures AllWellFormed(r) && DistinctValues(r)
    ensures ValueSet(r) == ValueSet(s) - used
  {
    if s == [] then []
    else
      var v := Value(s[0]);
      var rest := FirstByValue(s[1..], if v in used then used else used + {v});
      assert ValueSet(s) == {v} + ValueSet(s[1..]);
      if v in used then rest
      else
        assert ValueSet([s[0]] + rest) == {v} + ValueSet(rest);
        assert forall e <- rest :: Value(e) != v;
        [s[0]] + rest
  }

  /** The filter only drops expressions. */
  lemma {:induction false} FirstByValueSubset(s: seq<Expression>, used: set<int>)
    requires AllWellFormed(s)
    ensures forall e <- FirstByValue(s, used) :: e in s
  {
    if s != [] {
      var v := Value(s[0]);
      FirstByValueSubset(s[1..], if v in used then used else used + {v});
    }
  }

  /** r keeps some of the items of s, in their order in s. */
  predicate Subsequence(r: seq<Expression>, s: seq<Expression>)
    decreases |s|
  {
    if r == [] then true
    else if s == [] then false
    else (r[0] == s[0] && Subsequence(r[1..], s[1..])) || Subsequence(r, s[1..])
  }

  /** The filter keeps the expressions it passes in the order it meets them. */
  lemma {:induction false} FirstByValueOrder(s: seq<Expression>, used: set<int>)
    requires AllWellFormed(s)
    ensures Subsequence(FirstByValue(s, used), s)
  {
    if s != [] {
      var v := Value(s[0]);
      var used' := if v in used then used else used + {v};
      FirstByValueOrder(s[1..], used');
      var rest := FirstByValue(s[1..], used');
      if v !in used {
        assert ([s[0]] + rest)[1..] == rest;
      }
    }
  }

  /** Of the expressions with one value, the first one seen is the one kept. */
  lemma {:induction false} FirstSeenWins(s: seq<Expression>, used: set<int>, j: nat)
    requires AllWellFormed(s) && j < |s| && Value(s[j]) !in used
    requires forall k :: 0 <= k < j ==> Value(s[k]) != Value(s[j])
    ensures s[j] in FirstByValue(s, used)
  {
    var v := Value(s[0]);
    if j > 0 {
      FirstSeenWins(s[1..], if v in used then used else used + {v}, j - 1);
    }
  }

  /** Each combiner in `ops` applied to one (left, right) pair, refusals dropped. */
  function ApplyCombiners(ops: seq<Operator>, left: Expression, right: Expression): (out: seq<Expression>)
    requires Positive(left) && Positive(right)
    ensures AllPositive(out)
    ensures forall c :: c in out <==>
      c.Node? && c.left == left && c.right == right && c.op in ops && Combine(c.op, left, right).Some?
  {
    if ops == [] then []
    else
      CombinedValue(ops[0], left, right);
      var rest := ApplyCombiners(ops[1..], left, right);
      match Combine(ops[0], left, right)
      case Some(c) => [c] + rest
      case None => rest
  }

  /** `expressionsUsing(left)` applied to the right operands: for each right operand in
      turn, the results of every combiner that `left` admits. */
  function CombineLeft(left: Expression, rights: seq<Expression>): (out: seq<Expression>)
    requires Positive(left) && AllPositive(rights)
    ensures AllPositive(out)
    ensures forall c :: c in out <==>
      c.Node? && c.left == left && c.right in rights && Combine(c.op, left, c.right).Some?
  {
    if rights == [] then []
    else ApplyCombiners(CombinersUsing(left), left, rights[0]) + CombineLeft(left, rights[1..])
  }

  /** The body of `expressionsAt`: every left operand in turn, against all right operands. */
  function CombinePairs(lefts: seq<Expression>, rights: seq<Expression>): (out: seq<Expression>)
    requires AllPositive(lefts) && AllPositive(rights)
    ensures AllPositive(out)
  {
    if lefts == [] then []
    else CombineLeft(lefts[0], rights) + CombinePairs(lefts[1..], rights)
  }

  /** The results are exactly the accepted nodes of any left operand with any right
      operand. */
  lemma {:induction false} CombinePairsMembers(lefts: seq<Expression>, rights: seq<Expression>)
    requires AllPositive(lefts) && AllPositive(rights)
    ensures forall c :: c in CombinePairs(lefts, rights) <==>
      c.Node? && c.left in lefts && c.right in rights && Combine(c.op, c.left, c.right).Some?
  {
    if lefts != [] {
      CombinePairsMembers(lefts[1..], rights);
      assert forall l :: l in lefts <==> l == lefts[0] || l in lefts[1..];
    }
  }

  /** `expressions`: a single item is its own only expression; a longer selection yields
      every combination over every interior split, first-seen per value. Every result
      consumes exactly the selection's numbers in order, and no two share a value. */
  function ExpressionsFor(p: seq<Expression>): (r: seq<Expression>)
    requires AllPositive(p)
    ensures AllPositive(r)
    ensures forall e <- r :: Numbers(e) == NumbersOf(p)
    ensures |p| == 1 ==> r == p
    decreases |p|, 3
  {
    if |p| == 1 then
      assert NumbersOf(p) == Numbers(p[0]) + NumbersOf([]);
      p
    else
      FirstByValueSubset(Splits(p), {});
      FirstByValue(Splits(p), {})
  }

  /** The results of `expressions` before the value filter: the results of the splits
      1, 2, .., |p|-1, in order. */
  function Splits(p: seq<Expression>): (r: seq<Expression>)
    requires AllPositive(p)
    ensures AllPositive(r)
    ensures forall e <- r :: Numbers(e) == NumbersOf(p)
    decreases |p|, 2
  {
    var xss := SplitResults(p);
    FlattenPositive(xss, NumbersOf(p));
    Flatten(xss)
  }

  /** The results of each interior split of p: entry j holds those of the split before
      position j, and entry 0, which splits nothing, is empty. */
  function SplitResults(p: seq<Expression>): (xss: seq<seq<Expression>>)
    requires AllPositive(p)
    ensures |xss| == |p| && (|p| > 0 ==> xss[0] == [])
    ensures forall j, c :: 1 <= j < |xss| && c in xss[j] ==> c in ExpressionsAt(j, p)
    ensures forall j, c :: 1 <= j < |xss| && c in ExpressionsAt(j, p) ==> c in xss[j]
    decreases |p|, 1
  {
    seq(|p|, j requires 0 <= j < |p| => if j == 0 then [] else ExpressionsAt(j, p))
  }

  /** The concatenation of a sequence of result sequences (the `flatMap` over splits). */
  function Flatten(xss: seq<seq<Expression>>): seq<Expression> {
    if xss == [] then [] else xss[0] + Flatten(xss[1..])
  }

  lemma {:induction false} InFlatten(xss: seq<seq<Expression>>, k: nat, x: Expression)
    requires k < |xss| && x in xss[k]
    ensures x in Flatten(xss)
  {
    if k > 0 {
      InFlatten(xss[1..], k - 1, x);
    }
  }

  lemma {:induction false} FromFlatten(xss: seq<seq<Expression>>, x: Expression) returns (k: nat)
    requires x in Flatten(xss)
    ensures k < |xss| && x in xss[k]
  {
    if x in xss[0] {
      k := 0;
    } else {
      var k' := FromFlatten(xss[1..], x);
      k := k' + 1;
    }
  }

  lemma FlattenPositive(xss: seq<seq<Expression>>, ns: seq<int>)
    requires forall k :: 0 <= k < |xss| ==> AllPositive(xss[k])
    requires forall k :: 0 <= k < |xss| ==> forall e <- xss[k] :: Numbers(e) == ns
    ensures AllPositive(Flatten(xss)) && forall e <- Flatten(xss) :: Numbers(e) == ns
  {
    forall e <- Flatten(xss) ensures Positive(e) && Numbers(e) == ns {
      var k := FromFlatten(xss, e);
    }
  }

  /** `expressionsAt`: the results of splitting p before position i. */
  function ExpressionsAt(i: nat, p: seq<Expression>): (r: seq<Expression>)
    requires AllPositive(p) && 1 <= i < |p|
    ensures AllPositive(r)
    ensures forall e <- r :: Numbers(e) == NumbersOf(p)
    decreases |p|, 0
  {
    var lefts, rights := ExpressionsFor(p[..i]), ExpressionsFor(p[i..]);
    assert p == p[..i] + p[i..];
    NumbersOfAppend(p[..i], p[i..]);
    CombinePairsMembers(lefts, rights);
    CombinePairs(lefts, rights)
  }

  /** The results of one split are exactly the accepted nodes of a result for the left
      part with a result for the right part. */
  lemma ExpressionsAtMembers(i: nat, p: seq<Expression>)
    requires AllPositive(p) && 1 <= i < |p|
    ensures forall c :: c in ExpressionsAt(i, p) <==>
      c.Node? && c.left in ExpressionsFor(p[..i]) && c.right in ExpressionsFor(p[i..])
      && Combine(c.op, c.left, c.right).Some?
  {
    CombinePairsMembers(ExpressionsFor(p[..i]), ExpressionsFor(p[i..]));
  }

  /** No two results of `expressions` share a value. */
  lemma ExpressionsDistinct(p: seq<Expression>)
    requires AllPositive(p)
    ensures DistinctValues(ExpressionsFor(p))
  {
  }

  /** A result of any one split is among the results over all splits. */
  lemma {:induction false} InSplits(p: seq<Expression>, i: nat, c: Expression)
    requires AllPositive(p) && 1 <= i < |p| && c in ExpressionsAt(i, p)
    ensures c in Splits(p)
  {
    InFlatten(SplitResults(p), i, c);
  }

  /** Every result over all splits comes from one split. */
  lemma {:induction false} FromSplit(p: seq<Expression>, c: Expression) returns (i: nat)
    requires AllPositive(p) && c in Splits(p)
    ensures 1 <= i < |p| && c in ExpressionsAt(i, p)
  {
    i := FromFlatten(SplitResults(p), c);
  }

  /** Every value obtainable by a combiner that accepts a left-part result and a right-part
      result, at any interior split, is the value of some expression of the selection. */
  lemma ExpressionsComplete(p: seq<Expression>, i: nat, left: Expression, op: Operator, right: Expression)
    requires AllPositive(p) && 1 <= i < |p|
    requires left in ExpressionsFor(p[..i]) && right in ExpressionsFor(p[i..])
    requires Combine(op, left, right).Some?
    ensures Value(Combine(op, left, right).value) in ValueSet(ExpressionsFor(p))
  {
    var c := Combine(op, left, right).value;
    ExpressionsAtMembers(i, p);
    assert c in ExpressionsAt(i, p);
    InSplits(p, i, c);
    assert Value(c) in ValueSet(Splits(p));
  }

  /** Conversely, every expression of a selection of two or more items is a combiner's
      accepted result over one interior split. */
  lemma ExpressionsSound(p: seq<Expression>, e: Expression) returns (i: nat)
    requires AllPositive(p) && |p| >= 2 && e in ExpressionsFor(p)
    ensures 1 <= i < |p| && e.Node?
    ensures e.left in ExpressionsFor(p[..i]) && e.right in ExpressionsFor(p[i..])
    ensures Combine(e.op, e.left, e.right) == Some(e)
  {
    FirstByValueSubset(Splits(p), {});
    i := FromSplit(p, e);
    ExpressionsAtMembers(i, p);
  }
}

=== FILE: combiners.dfy ===
/** The combiner rules: each operator's vetoes and the combiners available to a left
    operand (addCombiner, subtractCombiner, multiplyCombiner, divideCombiner,
    combiners, combinersUsing). */
module Combiners {
  import opened Wrappers
  import opened Expressions

  /** The veto a combiner creator applies to the left operand alone: when it holds, the
      creator returns no combiner at all. */
  predicate LeftVeto(op: Operator, left: int) {
    match op
    case Add => false
    case Subtract => left < 3
    case Multiply => left == 1
    case Divide => left == 1
  }

  /** The veto a combiner applies to the (left, right) pair. The divide check reads
      `left % right` only after `right == 1` has failed, so it needs a non-zero divisor. */
  predicate PairVeto(op: Operator, left: int, right: int)
    requires op == Divide && right != 1 ==> right != 0
  {
    match op
    case Add => false
    case Subtract => left <= right || left == right * 2
    case Multiply => right == 1
    case Divide => right == 1 || left % right != 0 || left == right * right
  }

  /** The position of each combiner creator in the stream `combiners()`. */
  function Position(op: Operator): nat {
    match op
    case Add => 0
    case Subtract => 1
    case Multiply => 2
    case Divide => 3
  }

  /** The combiners a left operand admits, in the order of `combiners()`. */
  function CombinersUsing(left: Expression): (ops: seq<Operator>)
    requires WellFormed(left)
    ensures forall op :: op in ops <==> !LeftVeto(op, Value(left))
    ensures forall i, j :: 0 <= i < j < |ops| ==> Position(ops[i]) < Position(ops[j])
  {
    var v := Value(left);
    (if LeftVeto(Add, v) then [] else [Add])
    + (if LeftVeto(Subtract, v) then [] else [Subtract])
    + (if LeftVeto(Multiply, v) then [] else [Multiply])
    + (if LeftVeto(Divide, v) then [] else [Divide])
  }

  /** Whether the divide combiner can be asked about this pair without the `%` check
      throwing: Java reaches `left % right` only when left is not 1 and right is not 1. */
  predicate CanAsk(op: Operator, left: Expression, right: Expression)
    requires WellFormed(left) && WellFormed(right)
  {
    op == Divide && Value(left) != 1 && Value(right) != 1 ==> Value(right) != 0
  }

  /** The combiner of `op` for `left`, applied to `right`: the new node, or None when either
      veto refuses the pair. */
  function Combine(op: Operator, left: Expression, right: Expression): (c: Option<Expression>)
    requires WellFormed(left) && WellFormed(right) && CanAsk(op, left, right)
    ensures op == Add ==> c.Some?
    ensures op == Subtract ==>
      (c.Some? <==> Value(left) >= 3 && Value(left) > Value(right) && Value(left) != 2 * Value(right))
    ensures op == Multiply ==> (c.Some? <==> Value(left) != 1 && Value(right) != 1)
    ensures op == Divide ==>
      (c.Some? <==> Value(left) != 1 && Value(right) != 1 && Value(left) % Value(right) == 0
                    && Value(left) != Value(right) * Value(right))
    ensures c.Some? ==> c.value == Node(left, op, right) && WellFormed(c.value)
  {
    var l, r := Value(left), Value(right);
    if LeftVeto(op, l) || PairVeto(op, l, r) then None else Some(Node(left, op, right))
  }

  /** From positive operands every combined value is a positive integer computed exactly:
      sums, differences and products as in integer arithmetic, and quotients without
      remainder. */
  lemma CombinedValue(op: Operator, left: Expression, right: Expression)
    requires Positive(left) && Positive(right)
    ensures CanAsk(op, left, right)
    ensures Combine(op, left, right).Some? ==>
      var c := Combine(op, left, right).value;
      && Positive(c)
      && (op == Add ==> Value(c) == Value(left) + Value(right))
      && (op == Subtract ==> Value(c) == Value(left) - Value(right))
      && (op == Multiply ==> Value(c) == Value(left) * Value(right))
      && (op == Divide ==> Value(c) * Value(right) == Value(left))
  {
    var l, r := Value(left), Value(right);
    if Combine(op, left, right).Some? {
      var c := Combine(op, left, right).value;
      assert Value(c) == op.Evaluate(l, r);
      if op == Multiply {
        ProductMonotone(l, r);
      } else if op == Divide {
        var q := TruncatedDiv(l, r);
        assert q * r == l;
        if q <= 0 {
          NonPositiveProduct(q, r);
        }
      }
    }
  }

  lemma NonPositiveProduct(q: int, r: int)
    requires q <= 0 && r > 0
    ensures q * r <= 0
  {
    assert q * r == -((-q) * r);
  }

  /** The vetoes refuse exactly the pairs whose result would repeat an operand's value:
      from positive operands no combined value equals either operand value. */
  lemma NoOperandEcho(op: Operator, left: Expression, right: Expression)
    requires Positive(left) && Positive(right)
    requires CanAsk(op, left, right) && Combine(op, left, right).Some?
    ensures Value(Combine(op, left, right).value) != Value(left)
    ensures Value(Combine(op, left, right).value) != Value(right)
  {
    CombinedValue(op, left, right);
    var l, r, v := Value(left), Value(right), Value(Combine(op, left, right).value);
    if op == Multiply {
      assert l >= 2 && r >= 2;
      ProductMonotone(l, r);
      ProductMonotone(r, l);
      assert v == l * r == (l - 1) * r + r == (r - 1) * l + l;
      ProductMonotone(l - 1, r);
      ProductMonotone(r - 1, l);
    } else if op == Divide {
      QuotientEcho(v, r, l);
    }
  }

  lemma QuotientEcho(v: int, r: int, l: int)
    requires v >= 1 && r >= 2 && v * r == l && l != r * r
    ensures v != l && v != r
  {
    ProductMonotone(r - 1, v);
    assert v * r == (r - 1) * v + v;
  }

  /** The subtract creator's left floor (`left < 3`) never refuses a pair of positive
      operands that the pair veto would have let through. */
  lemma SubtractFloorRedundant(left: int, right: int)
    requires left > 0 && right > 0
    requires LeftVeto(Subtract, left)
    ensures PairVeto(Subtract, left, right)
  {
  }
}

=== FILE: expressions.dfy ===
/** Expressions of the numbers game and the four arithmetic operators
    (class Solver.Expression, enum Solver.Operator, interface Solver.Priority). */
module Expressions {
  import opened Wrappers

  /** Rendering priorities: a larger priority binds more tightly. */
  const Low: int := 0
  const High: int := 1
  const Atomic: int := 2

  datatype Operator = Add | Subtract | Multiply | Divide {

    function Symbol(): string {
      match this
      case Add => "+"
      case Subtract => "-"
      case Multiply => "*"
      case Divide => "/"
    }

    function Priority(): int {
      match this
      case Add => Low
      case Subtract => Low
      case Multiply => High
      case Divide => High
    }

    predicate Commutative() {
      this == Add || this == Multiply
    }

    /** The operator's integer evaluation rule; Java's `/` truncates toward zero. */
    function Evaluate(a: int, b: int): int
      requires this == Divide ==> b != 0
    {
      match this
      case Add => a + b
      case Subtract => a - b
      case Multiply => a * b
      case Divide => TruncatedDiv(a, b)
    }
  }

  function Abs(x: int): nat {
    if x < 0 then -x else x
  }

  /** Java's integer division, which rounds the quotient toward zero: the remainder
      `a - q * b` is smaller than the divisor and never has the opposite sign to `a`. */
  function TruncatedDiv(a: int, b: int): (q: int)
    requires b != 0
    ensures Abs(a - q * b) < Abs(b)
    ensures a - q * b == 0 || (a - q * b < 0 <==> a < 0)
    ensures a % b == 0 ==> q * b == a
  {
    var m := Abs(a) / Abs(b);
    var q := if (a < 0) == (b < 0) then m else -m;
    TruncatedRemainder(a, b, q);
    q
  }

  lemma TruncatedRemainder(a: int, b: int, q: int)
    requires b != 0
    requires q == if (a < 0) == (b < 0) then Abs(a) / Abs(b) else -(Abs(a) / Abs(b))
    ensures a - q * b == if a < 0 then -(Abs(a) % Abs(b)) else Abs(a) % Abs(b)
    ensures Abs(a - q * b) < Abs(b)
    ensures a % b == 0 ==> q * b == a
  {
    var x: int, y: int := Abs(a), Abs(b);
    var m: int := x / y;
    DivisionFacts(x, y);
    SignedProducts(m, y);
    if a >= 0 && b > 0 {
      assert q * b == m * y;
    } else if a < 0 && b < 0 {
      assert q * b == m * (-y) == -(m * y);
    } else if a >= 0 {
      assert q * b == (-m) * (-y) == m * y;
    } else {
      assert q * b == (-m) * y == -(m * y);
    }
    if a % b == 0 {
      ExactQuotient(a, b, q);
    }
  }

  lemma DivisionFacts(x: nat, y: nat)
    requires y > 0
    ensures x == (x / y) * y + x % y && x % y < y
  {
  }

  lemma SignedProducts(m: int, y: int)
    ensures (-m) * (-y) == m * y && (-m) * y == -(m * y) && m * (-y) == -(m * y)
  {
  }

  lemma ExactQuotient(a: int, b: int, q: int)
    requires b != 0 && a % b == 0
    requires Abs(a - q * b) < Abs(b)
    ensures q * b == a
  {
    var k := a / b;
    assert a == k * b;
    assert (k - q) * b == a - q * b;
    if k != q {
      ProductAtLeastFactor(k - q, b);
    }
  }

  lemma ProductAtLeastFactor(c: int, b: int)
    requires c != 0 && b != 0
    ensures Abs(c * b) >= Abs(b)
  {
    if c > 0 && b > 0 {
      assert c * b == Abs(c) * Abs(b);
    } else if c > 0 {
      assert c * b == -(Abs(c) * Abs(b));
    } else if b > 0 {
      assert c * b == -(Abs(c) * Abs(b));
    } else {
      assert c * b == Abs(c) * Abs(b);
    }
    ProductMonotone(Abs(c), Abs(b));
  }

  lemma {:induction false} ProductMonotone(x: nat, y: nat)
    requires x >= 1
    ensures x * y >= y
  {
    if x > 1 {
      ProductMonotone(x - 1, y);
      assert x * y == (x - 1) * y + y;
    }
  }

  /** An expression: one source number, or an operator applied to two sub-expressions. */
  datatype Expression = Leaf(number: int) | Node(left: Expression, op: Operator, right: Expression)

  /** The value computed by the Java constructors, or None where one of them would throw
      (a division by zero); no such Java object can exist. */
  function Eval(e: Expression): Option<int> {
    match e
    case Leaf(n) => Some(n)
    case Node(l, op, r) =>
      var lv, rv := Eval(l), Eval(r);
      if lv.None? || rv.None? || (op == Divide && rv.value == 0) then None
      else Some(op.Evaluate(lv.value, rv.value))
  }

  /** The expressions that can exist as Java objects. */
  predicate WellFormed(e: Expression) {
    Eval(e).Some?
  }

  function Value(e: Expression): int
    requires WellFormed(e)
  {
    Eval(e).value
  }

  /** Positive expressions are the ones the search builds from validated source numbers. */
  predicate Positive(e: Expression) {
    WellFormed(e) && Value(e) > 0
  }

  /** The source numbers an expression consumes, in rendering order. */
  function Numbers(e: Expression): (ns: seq<int>)
    ensures |ns| >= 1
    ensures e.Node? ==> |ns| >= 2
  {
    match e
    case Leaf(n) => [n]
    case Node(l, _, r) => Numbers(l) + Numbers(r)
  }

  function Priority(e: Expression): int {
    match e
    case Leaf(_) => Atomic
    case Node(_, op, _) => op.Priority()
  }

  /** The invariants the two Java constructors establish: a leaf has value n, numbers [n]
      and the atomic priority; a node has the operator's value, the concatenated numbers
      and the operator's priority, and exists exactly when its operands exist and it does
      not divide by zero. */
  lemma ConstructorInvariants(e: Expression)
    ensures e.Leaf? ==> WellFormed(e) && Value(e) == e.number && Numbers(e) == [e.number] && Priority(e) == Atomic
    ensures e.Node? ==>
      (WellFormed(e) <==> WellFormed(e.left) && WellFormed(e.right) && (e.op == Divide ==> Value(e.right) != 0))
    ensures e.Node? && WellFormed(e) ==>
      Value(e) == e.op.Evaluate(Value(e.left), Value(e.right)) &&
      Numbers(e) == Numbers(e.left) + Numbers(e.right) && Priority(e) == e.op.Priority()
  {
  }

  predicate AllWellFormed(s: seq<Expression>) {
    forall e <- s :: WellFormed(e)
  }

  /** The values of a sequence of expressions. */
  function Values(s: seq<Expression>): (vs: seq<int>)
    requires AllWellFormed(s)
    ensures |vs| == |s| && forall k :: 0 <= k < |s| ==> vs[k] == Value(s[k])
  {
    if s == [] then [] else [Value(s[0])] + Values(s[1..])
  }

  /** The source numbers consumed by a sequence of expressions, left to right. */
  function NumbersOf(s: seq<Expression>): (ns: seq<int>)
    ensures |ns| >= |s|
  {
    if s == [] then [] else Numbers(s[0]) + NumbersOf(s[1..])
  }

  lemma {:induction false} ValuesAppend(a: seq<Expression>, b: seq<Expression>)
    requires AllWellFormed(a) && AllWellFormed(b)
    ensures Values(a + b) == Values(a) + Values(b)
  {
  }

  lemma {:induction false} NumbersOfAppend(a: seq<Expression>, b: seq<Expression>)
    ensures NumbersOf(a + b) == NumbersOf(a) + NumbersOf(b)
  {
    if a == [] {
      assert a + b == b;
    } else {
      assert (a + b)[1..] == a[1..] + b;
      NumbersOfAppend(a[1..], b);
    }
  }

  /** For leaves, the numbers consumed are exactly the values. */
  lemma {:induction false} LeafNumbers(s: seq<Expression>)
    requires forall e <- s :: e.Leaf?
    ensures NumbersOf(s) == Values(s)
  {
    if s != [] {
      LeafNumbers(s[1..]);
    }
  }

  /** Taking a sub-multiset of expressions takes a sub-multiset of the numbers they consume. */
  lemma {:induction false} NumbersOfSubMultiset(a: seq<Expression>, b: seq<Expression>)
    requires multiset(a) <= multiset(b)
    ensures multiset(NumbersOf(a)) <= multiset(NumbersOf(b))
    decreases |a|
  {
    if a != [] {
      var x := a[0];
      assert x in multiset(b);
      var k :| 0 <= k < |b| && b[k] == x;
      var b' := b[..k] + b[k + 1..];
      RemoveAt(b, k);
      SubMultisetTail(a, b, b');
      NumbersOfSubMultiset(a[1..], b');
      NumbersOfRemoveAt(b, k);
      assert NumbersOf(a) == Numbers(x) + NumbersOf(a[1..]);
    }
  }

  lemma RemoveAt<T>(s: seq<T>, k: nat)
    requires k < |s|
    ensures multiset(s) == multiset(s[..k] + s[k + 1..]) + multiset{s[k]}
  {
    assert s == s[..k] + [s[k]] + s[k + 1..];
  }

  lemma {:induction false} SubMultisetLength<T>(a: seq<T>, b: seq<T>)
    requires multiset(a) <= multiset(b)
    ensures |a| <= |b|
  {
    if a != [] {
      assert a[0] in multiset(b);
      var k :| 0 <= k < |b| && b[k] == a[0];
      RemoveAt(b, k);
      SubMultisetTail(a, b, b[..k] + b[k + 1..]);
      SubMultisetLength(a[1..], b[..k] + b[k + 1..]);
    }
  }

  lemma SubMultisetTail<T>(a: seq<T>, b: seq<T>, b': seq<T>)
    requires a != [] && multiset(a) <= multiset(b)
    requires multiset(b) == multiset(b') + multiset{a[0]}
    ensures multiset(a[1..]) <= multiset(b')
  {
    assert a == [a[0]] + a[1..];
    assert multiset(a) == multiset(a[1..]) + multiset{a[0]};
    forall z
      ensures multiset(a[1..])[z] <= multiset(b')[z]
    {
      assert multiset(a)[z] <= multiset(b)[z];
    }
  }

  lemma NumbersOfRemoveAt(b: seq<Expression>, k: nat)
    requires k < |b|
    ensures multiset(NumbersOf(b)) == multiset(Numbers(b[k])) + multiset(NumbersOf(b[..k] + b[k + 1..]))
  {
    NumbersOfAround(b, k);
    NumbersOfAppend(b[..k], b[k + 1..]);
    MultisetOfMiddle(NumbersOf(b[..k]), Numbers(b[k]), NumbersOf(b[k + 1..]));
  }

  lemma {:induction false} NumbersOfAround(b: seq<Expression>, k: nat)
    requires k < |b|
    ensures NumbersOf(b) == NumbersOf(b[..k]) + (Numbers(b[k]) + NumbersOf(b[k + 1..]))
  {
    if k == 0 {
      assert b[..0] == [] && b[1..] == b[k + 1..];
    } else {
      var t := b[1..];
      NumbersOfAround(t, k - 1);
      assert b[..k][0] == b[0] && b[..k][1..] == t[..k - 1];
      assert t[k - 1] == b[k] && t[k..] == b[k + 1..];
    }
  }

  lemma MultisetOfMiddle(x: seq<int>, y: seq<int>, z: seq<int>)
    ensures multiset(x + (y + z)) == multiset(y) + multiset(x + z)
  {
  }
}

=== FILE: permutations.dfy ===
/** The permutation generator (`permute`, `permuteAt`, and `usedChecker` as used by
    `permute`). Given the leaves of the source numbers it yields every non-empty ordered
    selection of them, skipping a candidate first element whose value has already been
    chosen first at the same level. */
module Permutations {
  import opened Expressions

  /** No two selections are equal as sequences of values. */
  predicate DistinctValueSeqs(ss: seq<seq<Expression>>)
    requires forall k :: 0 <= k < |ss| ==> AllWellFormed(ss[k])
  {
    forall j, k :: 0 <= j < k < |ss| ==> Values(ss[j]) != Values(ss[k])
  }

  /** `permute`: a single item is its own only selection; otherwise every first choice that
      survives the per-call seen-value check is followed by every suffix. */
  function Permute(items: seq<Expression>): (out: seq<seq<Expression>>)
    requires AllWellFormed(items)
    ensures forall p <- out :: |p| >= 1 && AllWellFormed(p)
    decreases |items|, 2
  {
    if |items| == 1 then [items] else PermuteFrom(items, 0, {})
  }

  /** The loop of `permute` over positions i.. with the values already chosen as first
      element in `used` (the state of the `usedChecker` set). */
  function PermuteFrom(items: seq<Expression>, i: nat, used: set<int>): (out: seq<seq<Expression>>)
    requires AllWellFormed(items) && i <= |items|
    ensures forall p <- out :: |p| >= 1 && AllWellFormed(p) && Value(p[0]) !in used
    decreases |items|, 1, |items| - i
  {
    if i == |items| then []
    else if Value(items[i]) in used then PermuteFrom(items, i + 1, used)
    else PermuteAt(i, items) + PermuteFrom(items, i + 1, used + {Value(items[i])})
  }

  /** `permuteAt`: item i alone (the empty suffix), then item i before every selection of
      the other items. */
  function PermuteAt(i: nat, items: seq<Expression>): (out: seq<seq<Expression>>)
    requires AllWellFormed(items) && i < |items|
    ensures forall p <- out :: |p| >= 1 && AllWellFormed(p) && p[0] == items[i]
    decreases |items|, 0
  {
    Prepend(items[i], [[]] + Permute(Others(items, i)))
  }

  /** The items other than the one at position i, in their original order. */
  function Others(items: seq<Expression>, i: nat): (others: seq<Expression>)
    requires i < |items|
    ensures |others| == |items| - 1
    ensures forall e <- others :: e in items
    ensures multiset(others) + multiset{items[i]} == multiset(items)
    ensures forall k :: 0 <= k < |others| ==> others[k] == if k < i then items[k] else items[k + 1]
  {
    RemoveAt(items, i);
    items[..i] + items[i + 1..]
  }

  function Prepend(x: Expression, ss: seq<seq<Expression>>): (out: seq<seq<Expression>>)
    ensures |out| == |ss| && forall k :: 0 <= k < |ss| ==> out[k] == [x] + ss[k]
  {
    seq(|ss|, k requires 0 <= k < |ss| => [x] + ss[k])
  }

  /** Putting item i before a selection of the other items is a selection of all items. */
  lemma PrependWithin(items: seq<Expression>, i: nat, suffixes: seq<seq<Expression>>)
    requires i < |items|
    requires forall s <- suffixes :: multiset(s) <= multiset(Others(items, i))
    ensures forall s <- suffixes :: multiset([items[i]] + s) <= multiset(items)
  {
    RemoveAt(items, i);
    forall s <- suffixes ensures multiset([items[i]] + s) <= multiset(items) {
      assert multiset([items[i]] + s) == multiset(s) + multiset{items[i]};
    }
  }

  /** Every selection takes each item at most once. */
  lemma {:induction false} PermuteSelects(items: seq<Expression>)
    requires AllWellFormed(items)
    ensures forall p <- Permute(items) :: |p| <= |items| && multiset(p) <= multiset(items)
    decreases |items|, 2
  {
    if |items| != 1 {
      PermuteFromSelects(items, 0, {});
    }
  }

  lemma {:induction false} PermuteFromSelects(items: seq<Expression>, i: nat, used: set<int>)
    requires AllWellFormed(items) && i <= |items|
    ensures forall p <- PermuteFrom(items, i, used) :: |p| <= |items| && multiset(p) <= multiset(items)
    decreases |items|, 1, |items| - i
  {
    if i < |items| {
      var v := Value(items[i]);
      if v in used {
        PermuteFromSelects(items, i + 1, used);
      } else {
        PermuteAtSelects(i, items);
        PermuteFromSelects(items, i + 1, used + {v});
      }
    }
  }

  lemma {:induction false} PermuteAtSelects(i: nat, items: seq<Expression>)
    requires AllWellFormed(items) && i < |items|
    ensures forall p <- PermuteAt(i, items) :: |p| <= |items| && multiset(p) <= multiset(items)
    decreases |items|, 0
  {
    var suffixes := [[]] + Permute(Others(items, i));
    PermuteSelects(Others(items, i));
    PrependWithin(items, i, suffixes);
    var out := Prepend(items[i], suffixes);
    forall p <- out ensures |p| <= |items| && multiset(p) <= multiset(items) {
      var k :| 0 <= k < |out| && out[k] == p;
      assert suffixes[k] in suffixes;
      SubMultisetLength(p, items);
    }
  }

  lemma InPrepend(x: Expression, ss: seq<seq<Expression>>, s: seq<Expression>)
    requires s in ss
    ensures [x] + s in Prepend(x, ss)
  {
    var k :| 0 <= k < |ss| && ss[k] == s;
    assert Prepend(x, ss)[k] == [x] + s;
  }

  lemma ValuesTake(s: seq<Expression>, k: nat)
    requires AllWellFormed(s) && k <= |s|
    ensures AllWellFormed(s[..k]) && Values(s[..k]) == Values(s)[..k]
  {
  }

  lemma ValuesDrop(s: seq<Expression>, k: nat)
    requires AllWellFormed(s) && k <= |s|
    ensures AllWellFormed(s[k..]) && Values(s[k..]) == Values(s)[k..]
  {
    assert forall e <- s[k..] :: e in s;
    var a, b := Values(s[k..]), Values(s)[k..];
    forall j | 0 <= j < |a| ensures a[j] == b[j] {
      assert s[k..][j] == s[k + j];
    }
  }

  lemma ValuesOfOthers(items: seq<Expression>, i: nat)
    requires AllWellFormed(items) && i < |items|
    ensures AllWellFormed(Others(items, i))
    ensures multiset(Values(items)) == multiset(Values(Others(items, i))) + multiset{Value(items[i])}
  {
    var vs := Values(items);
    ValuesAppend(items[..i], items[i + 1..]);
    ValuesTake(items, i);
    ValuesDrop(items, i + 1);
    RemoveAt(vs, i);
  }

  /** No two selections are equal as value sequences. */
  lemma {:induction false} PermuteDistinct(items: seq<Expression>)
    requires AllWellFormed(items)
    ensures DistinctValueSeqs(Permute(items))
    decreases |items|, 2
  {
    if |items| != 1 {
      PermuteFromDistinct(items, 0, {});
    }
  }

  lemma {:induction false} PermuteFromDistinct(items: seq<Expression>, i: nat, used: set<int>)
    requires AllWellFormed(items) && i <= |items|
    ensures DistinctValueSeqs(PermuteFrom(items, i, used))
    decreases |items|, 1, |items| - i
  {
    if i < |items| {
      var v := Value(items[i]);
      if v in used {
        PermuteFromDistinct(items, i + 1, used);
      } else {
        var front, back := PermuteAt(i, items), PermuteFrom(items, i + 1, used + {v});
        PermuteAtDistinct(i, items);
        PermuteFromDistinct(items, i + 1, used + {v});
        forall p <- front, p' <- back ensures Values(p) != Values(p') {
          assert Values(p)[0] == v != Values(p')[0];
        }
        DistinctAppend(front, back);
      }
    }
  }

  lemma {:induction false} PermuteAtDistinct(i: nat, items: seq<Expression>)
    requires AllWellFormed(items) && i < |items|
    ensures DistinctValueSeqs(PermuteAt(i, items))
    decreases |items|, 0
  {
    var x, others := items[i], Others(items, i);
    var suffixes := [[]] + Permute(others);
    PermuteDistinct(others);
    var out := PermuteAt(i, items);
    forall j, k | 0 <= j < k < |out| ensures Values(out[j]) != Values(out[k]) {
      assert out[j] == [x] + suffixes[j] && out[k] == [x] + suffixes[k];
      ValuesAppend([x], suffixes[j]);
      ValuesAppend([x], suffixes[k]);
      if j == 0 {
        assert |Values(out[j])| == 1 < |Values(out[k])|;
      } else {
        assert Values(suffixes[j]) != Values(suffixes[k]);
      }
    }
  }

  lemma DistinctAppend(a: seq<seq<Expression>>, b: seq<seq<Expression>>)
    requires forall p <- a :: AllWellFormed(p)
    requires forall p <- b :: AllWellFormed(p)
    requires DistinctValueSeqs(a) && DistinctValueSeqs(b)
    requires forall p <- a, p' <- b :: Values(p) != Values(p')
    ensures DistinctValueSeqs(a + b)
  {
    var ab := a + b;
    assert forall k :: 0 <= k < |ab| ==> ab[k] in a || ab[k] in b;
    forall j, k | 0 <= j < k < |ab| ensures Values(ab[j]) != Values(ab[k]) {
      if k < |a| {
        assert ab[j] == a[j] && ab[k] == a[k];
      } else if j >= |a| {
        assert ab[j] == b[j - |a|] && ab[k] == b[k - |a|];
      } else {
        assert ab[j] in a && ab[k] in b;
      }
    }
  }

  /** Every non-empty arrangement of a sub-multiset of the item values is emitted. */
  lemma {:induction false} PermuteComplete(items: seq<Expression>, q: seq<int>)
    requires AllWellFormed(items)
    requires |q| >= 1 && multiset(q) <= multiset(Values(items))
    ensures exists p :: p in Permute(items) && Values(p) == q
  {
    var p := Emitted(items, q);
  }

  /** The selection that `permute` emits for the value arrangement q. */
  lemma {:induction false} Emitted(items: seq<Expression>, q: seq<int>) returns (p: seq<Expression>)
    requires AllWellFormed(items)
    requires |q| >= 1 && multiset(q) <= multiset(Values(items))
    ensures p in Permute(items) && AllWellFormed(p) && Values(p) == q
    decreases |items|, 2
  {
    assert q[0] in multiset(Values(items));
    if |items| == 1 {
      SubMultisetLength(q, Values(items));
      assert q == [q[0]] && Values(items) == [Value(items[0])];
      p := items;
    } else {
      var j :| 0 <= j < |items| && Values(items)[j] == q[0];
      var k := ChosenFirst(items, 0, {}, q[0], j);
      p := EmittedAt(k, items, q);
    }
  }

  /** Scanning from position i with the first values in `used`, the first item whose value
      is v (one exists at j or earlier) is where every selection starting with it is emitted. */
  lemma {:induction false} ChosenFirst(items: seq<Expression>, i: nat, used: set<int>, v: int, j: nat)
    returns (k: nat)
    requires AllWellFormed(items) && i <= j < |items|
    requires v !in used && v == Value(items[j])
    ensures i <= k <= j && Value(items[k]) == v
    ensures forall p <- PermuteAt(k, items) :: p in PermuteFrom(items, i, used)
    decreases |items| - i
  {
    var u := Value(items[i]);
    if u == v {
      k := i;
    } else if u in used {
      k := ChosenFirst(items, i + 1, used, v, j);
    } else {
      k := ChosenFirst(items, i + 1, used + {u}, v, j);
    }
  }

  lemma {:induction false} EmittedAt(i: nat, items: seq<Expression>, q: seq<int>) returns (p: seq<Expression>)
    requires AllWellFormed(items) && i < |items|
    requires |q| >= 1 && multiset(q) <= multiset(Values(items)) && q[0] == Value(items[i])
    ensures p in PermuteAt(i, items) && AllWellFormed(p) && Values(p) == q
    decreases |items|, 0
  {
    var x, others := items[i], Others(items, i);
    var suffixes := [[]] + Permute(others);
    var s: seq<Expression> := [];
    if |q| > 1 {
      ValuesOfOthers(items, i);
      SubMultisetTail(q, Values(items), Values(others));
      s := Emitted(others, q[1..]);
    }
    assert s in suffixes;
    InPrepend(x, suffixes, s);
    p := [x] + s;
    ConsValues(x, s, q);
  }

  /** An item before a selection whose values are the rest of q has the values q. */
  lemma ConsValues(x: Expression, s: seq<Expression>, q: seq<int>)
    requires WellFormed(x) && AllWellFormed(s) && |q| >= 1 && q[0] == Value(x)
    requires if |q| == 1 then s == [] else Values(s) == q[1..]
    ensures AllWellFormed([x] + s) && Values([x] + s) == q
  {
    ValuesAppend([x], s);
    assert q == [q[0]] + q[1..];
  }
}

=== FILE: reading.dfy ===
/** Reading the text of an expression back under the usual conventions of arithmetic
    (multiplication and division before addition and subtraction, each level grouping to
    the left, brackets first). The text the program prints means the expression it
    describes: read back, it gives the expression's value. */
module Reading {
  import opened Wrappers
  import opened Expressions
  import opened Rendering
  import opened Search

  datatype Token = Num(value: int) | Sym(op: Operator) | Open | Close | Stray(c: char)

  function OperatorOf(c: char): (r: Option<Operator>)
    ensures r.Some? <==> c in "+-*/"
    ensures r.Some? ==> r.value.Symbol() == [c]
  {
    match c
    case '+' => Some(Add)
    case '-' => Some(Subtract)
    case '*' => Some(Multiply)
    case '/' => Some(Divide)
    case _ => None
  }

  /** The length of the run of digits that starts s. */
  function DigitRun(s: string): (k: nat)
    ensures k <= |s|
    ensures forall j :: 0 <= j < k ==> IsDigit(s[j])
    ensures k < |s| ==> !IsDigit(s[k])
  {
    if s == [] || !IsDigit(s[0]) then 0 else 1 + DigitRun(s[1..])
  }

  /** Splits a text into tokens; a run of digits is one number. */
  function Lex(s: string): seq<Token>
    decreases |s|
  {
    if s == [] then []
    else if s[0] == ' ' then Lex(s[1..])
    else if IsDigit(s[0]) then
      var k := DigitRun(s);
      assert AllDigits(s[..k]) by {
        forall c <- s[..k] ensures IsDigit(c) {
          var j :| 0 <= j < k && s[..k][j] == c;
        }
      }
      [Num(DigitsValue(s[..k]))] + Lex(s[k..])
    else if s[0] == '(' then [Open] + Lex(s[1..])
    else if s[0] == ')' then [Close] + Lex(s[1..])
    else match OperatorOf(s[0])
      case Some(op) => [Sym(op)] + Lex(s[1..])
      case None => [Stray(s[0])] + Lex(s[1..])
  }

  /** A value read from the front of a token sequence, and the tokens after it. */
  datatype Parsed = Parsed(value: int, rest: seq<Token>)

  /** A sum: products joined by `+` and `-`, grouped to the left. */
  function ParseSum(ts: seq<Token>): (r: Option<Parsed>)
    ensures r.Some? ==> |r.value.rest| < |ts|
    decreases |ts|, 3
  {
    match ParseProduct(ts)
    case None => None
    case Some(p) => SumTail(p.value, p.rest)
  }

  function SumTail(acc: int, ts: seq<Token>): (r: Option<Parsed>)
    ensures r.Some? ==> |r.value.rest| <= |ts|
    decreases |ts|, 2
  {
    if ts != [] && ts[0].Sym? && ts[0].op.Priority() == Low then
      match ParseProduct(ts[1..])
      case None => None
      case Some(p) => SumTail(ts[0].op.Evaluate(acc, p.value), p.rest)
    else Some(Parsed(acc, ts))
  }

  /** A product: atoms joined by `*` and `/`, grouped to the left; dividing by zero fails. */
  function ParseProduct(ts: seq<Token>): (r: Option<Parsed>)
    ensures r.Some? ==> |r.value.rest| < |ts|
    decreases |ts|, 1
  {
    match ParseAtom(ts)
    case None => None
    case Some(a) => ProductTail(a.value, a.rest)
  }

  function ProductTail(acc: int, ts: seq<Token>): (r: Option<Parsed>)
    ensures r.Some? ==> |r.value.rest| <= |ts|
    decreases |ts|, 0
  {
    if ts != [] && ts[0].Sym? && ts[0].op.Priority() == High then
      match ParseAtom(ts[1..])
      case None => None
      case Some(a) =>
        if ts[0].op == Divide && a.value == 0 then None
        else ProductTail(ts[0].op.Evaluate(acc, a.value), a.rest)
    else Some(Parsed(acc, ts))
  }

  /** An atom: a number, or a sum in brackets. */
  function ParseAtom(ts: seq<Token>): (r: Option<Parsed>)
    ensures r.Some? ==> |r.value.rest| < |ts|
    decreases |ts|, 0
  {
    if ts == [] then None
    else match ts[0]
      case Num(n) => Some(Parsed(n, ts[1..]))
      case Open =>
        (match ParseSum(ts[1..])
         case Some(p) =>
           if p.rest != [] && p.rest[0] == Close then Some(Parsed(p.value, p.rest[1..])) else None
         case None => None)
      case _ => None
  }

  /** The value a text denotes, if it is a well-formed sum with nothing left over. */
  function Read(s: string): Option<int> {
    match ParseSum(Lex(s))
    case Some(p) => if p.rest == [] then Some(p.value) else None
    case None => None
  }

  /** The tokens of the text `Render` produces. */
  function Tokens(e: Expression): seq<Token>
    decreases e, 0
  {
    match e
    case Leaf(n) => [Num(n)]
    case Node(l, op, r) =>
      OperandTokens(l, LeftParenthesised(l, op)) + [Sym(op)] + OperandTokens(r, RightParenthesised(r, op))
  }

  function OperandTokens(e: Expression, parenthesise: bool): seq<Token>
    decreases e, 1
  {
    if parenthesise then [Open] + Tokens(e) + [Close] else Tokens(e)
  }

  /** Every source number is written without a sign. */
  predicate NaturalLeaves(e: Expression) {
    match e
    case Leaf(n) => n >= 0
    case Node(l, _, r) => NaturalLeaves(l) && NaturalLeaves(r)
  }

  /** Every division in the expression is exact, as the divide combiner demands. */
  predicate ExactDivisions(e: Expression) {
    match e
    case Leaf(_) => true
    case Node(l, op, r) =>
      ExactDivisions(l) && ExactDivisions(r) && WellFormed(e) && (op == Divide ==> Value(l) % Value(r) == 0)
  }

  predicate Separated(s: string) {
    s == [] || !IsDigit(s[0])
  }

  /** The next token cannot extend a product. */
  predicate ProductStops(ts: seq<Token>) {
    ts == [] || !(ts[0].Sym? && ts[0].op.Priority() == High)
  }

  // Lexing the rendered text

  lemma {:induction false} DigitRunOf(ds: string, s: string)
    requires AllDigits(ds) && Separated(s)
    ensures DigitRun(ds + s) == |ds|
  {
    if ds != [] {
      assert ds[0] in ds;
      assert (ds + s)[1..] == ds[1..] + s;
      DigitRunOf(ds[1..], s);
    }
  }

  lemma LexDigits(ds: string, s: string)
    requires |ds| >= 1 && AllDigits(ds) && Separated(s)
    ensures Lex(ds + s) == [Num(DigitsValue(ds))] + Lex(s)
  {
    assert ds[0] in ds;
    DigitRunOf(ds, s);
    assert (ds + s)[..|ds|] == ds && (ds + s)[|ds|..] == s;
  }

  lemma LexFirst(c: char, s: string)
    requires !IsDigit(c)
    ensures Lex([c] + s) ==
      if c == ' ' then Lex(s)
      else if c == '(' then [Open] + Lex(s)
      else if c == ')' then [Close] + Lex(s)
      else if OperatorOf(c).Some? then [Sym(OperatorOf(c).value)] + Lex(s)
      else [Stray(c)] + Lex(s)
  {
    assert ([c] + s)[1..] == s;
  }

  /** Lexing the text of an expression with natural leaves yields its tokens, whatever
      follows, so long as it does not run into the last number. */
  lemma {:induction false} LexRender(e: Expression, s: string)
    requires NaturalLeaves(e) && Separated(s)
    ensures Lex(Render(e) + s) == Tokens(e) + Lex(s)
    decreases e, 0, 2
  {
    if e.Leaf? {
      LexDigits(DecimalDigits(e.number), s);
    } else {
      LexNode(e, s);
    }
  }

  lemma {:induction false} LexNode(e: Expression, s: string)
    requires e.Node? && NaturalLeaves(e) && Separated(s)
    ensures Lex(Render(e) + s) == Tokens(e) + Lex(s)
    decreases e, 0, 1
  {
    var Node(l, op, r) := e;
    var pl, pr := LeftParenthesised(l, op), RightParenthesised(r, op);
    var u := " " + op.Symbol() + " " + (RenderOperand(r, pr) + s);
    RenderNode(e, s);
    LexOperand(l, pl, u);
    LexRightOperand(e, s);
    TokensNode(e, Lex(s));
  }

  lemma RenderNode(e: Expression, s: string)
    requires e.Node?
    ensures Render(e) + s == RenderOperand(e.left, LeftParenthesised(e.left, e.op))
      + (" " + e.op.Symbol() + " " + (RenderOperand(e.right, RightParenthesised(e.right, e.op)) + s))
  {
    var Node(l, op, r) := e;
    Regroup(RenderOperand(l, LeftParenthesised(l, op)), " ", op.Symbol(), " ", RenderOperand(r, RightParenthesised(r, op)), s);
  }

  lemma TokensNode(e: Expression, t: seq<Token>)
    requires e.Node?
    ensures Tokens(e) + t == OperandTokens(e.left, LeftParenthesised(e.left, e.op))
      + ([Sym(e.op)] + (OperandTokens(e.right, RightParenthesised(e.right, e.op)) + t))
  {
    var Node(l, op, r) := e;
    Regroup(OperandTokens(l, LeftParenthesised(l, op)), [Sym(op)], [], [], OperandTokens(r, RightParenthesised(r, op)), t);
  }

  /** The operator and the right operand of a node, as rendered, give their tokens. */
  lemma {:induction false} LexRightOperand(e: Expression, s: string)
    requires e.Node? && NaturalLeaves(e) && Separated(s)
    ensures Lex(" " + e.op.Symbol() + " " + (RenderOperand(e.right, RightParenthesised(e.right, e.op)) + s))
      == [Sym(e.op)] + (OperandTokens(e.right, RightParenthesised(e.right, e.op)) + Lex(s))
    decreases e, 0, 0
  {
    var r, pr := e.right, RightParenthesised(e.right, e.op);
    LexOperatorGap(e.op, RenderOperand(r, pr) + s);
    LexOperand(r, pr, s);
  }

  lemma Enclose<T>(x: seq<T>, y: seq<T>, z: seq<T>, s: seq<T>)
    ensures x + y + z + s == x + (y + (z + s))
  {
  }

  lemma Regroup<T>(a: seq<T>, x: seq<T>, y: seq<T>, z: seq<T>, b: seq<T>, s: seq<T>)
    ensures a + x + y + z + b + s == a + (x + y + z + (b + s))
  {
  }

  /** The operator between two operands, with a space on each side, is one token. */
  lemma LexOperatorGap(op: Operator, t: string)
    ensures Lex(" " + op.Symbol() + " " + t) == [Sym(op)] + Lex(t)
  {
    var sym := op.Symbol();
    assert sym == [sym[0]] && OperatorOf(sym[0]) == Some(op);
    assert " " + sym + " " + t == [' '] + ([sym[0]] + ([' '] + t));
    LexFirst(' ', t);
    LexFirst(sym[0], [' '] + t);
    LexFirst(' ', [sym[0]] + ([' '] + t));
  }

  lemma {:induction false} LexOperand(e: Expression, parenthesise: bool, s: string)
    requires NaturalLeaves(e) && Separated(s)
    ensures Lex(RenderOperand(e, parenthesise) + s) == OperandTokens(e, parenthesise) + Lex(s)
    decreases e, 1
  {
    if parenthesise {
      calc {
        Lex(RenderOperand(e, true) + s);
        { Enclose("(", Render(e), ")", s); }
        Lex(['('] + (Render(e) + ([')'] + s)));
        { LexFirst('(', Render(e) + ([')'] + s)); }
        [Open] + Lex(Render(e) + ([')'] + s));
        { LexRender(e, [')'] + s); }
        [Open] + (Tokens(e) + Lex([')'] + s));
        { LexFirst(')', s); }
        [Open] + (Tokens(e) + ([Close] + Lex(s)));
        { Enclose([Open], Tokens(e), [Close], Lex(s)); }
        OperandTokens(e, true) + Lex(s);
      }
    } else {
      LexRender(e, s);
    }
  }

  // Parsing the tokens

  /** A bracketed expression is read as one atom with its value. */
  lemma {:induction false} ParseBracketed(e: Expression, rest: seq<Token>)
    requires ExactDivisions(e)
    ensures WellFormed(e) && ParseAtom(OperandTokens(e, true) + rest) == Some(Parsed(Value(e), rest))
    decreases e, 1, 1
  {
    ParseSumOperand(e, false, [Close] + rest);
    Enclose([Open], Tokens(e), [Close], rest);
    DropFirst(Open, Tokens(e) + ([Close] + rest));
  }

  /** An operand is read as a sum with its value, ending where the operand ends. */
  lemma {:induction false} ParseSumOperand(e: Expression, parenthesise: bool, rest: seq<Token>)
    requires ExactDivisions(e) && ProductStops(rest)
    ensures WellFormed(e) && ParseSum(OperandTokens(e, parenthesise) + rest) == SumTail(Value(e), rest)
    decreases e, if parenthesise then 1 else 0, 3
  {
    if parenthesise || Priority(e) >= High {
      ParseProductOperand(e, parenthesise, rest);
    } else {
      var Node(b, op, c) := e;
      var pb, pc := LeftParenthesised(b, op), RightParenthesised(c, op);
      var tail := [Sym(op)] + (OperandTokens(c, pc) + rest);
      TokensNode(e, rest);
      ParseSumOperand(b, pb, tail);
      SumTailOperand(Value(b), op, c, pc, rest);
    }
  }

  /** After a running total, an operator of low priority and an operand add the operand's
      value to the total. */
  lemma {:induction false} SumTailOperand(acc: int, op: Operator, e: Expression, parenthesise: bool, rest: seq<Token>)
    requires op.Priority() == Low && ExactDivisions(e) && ProductStops(rest)
    requires !parenthesise && Priority(e) == Low ==> op == Add
    ensures WellFormed(e)
    ensures SumTail(acc, [Sym(op)] + (OperandTokens(e, parenthesise) + rest)) == SumTail(op.Evaluate(acc, Value(e)), rest)
    decreases e, if parenthesise then 1 else 0, 3
  {
    DropFirst(Sym(op), OperandTokens(e, parenthesise) + rest);
    if parenthesise || Priority(e) >= High {
      ParseProductOperand(e, parenthesise, rest);
    } else {
      var Node(b, op2, c) := e;
      var pb, pc := LeftParenthesised(b, op2), RightParenthesised(c, op2);
      var tail := [Sym(op2)] + (OperandTokens(c, pc) + rest);
      TokensNode(e, rest);
      SumTailOperand(acc, op, b, pb, tail);
      SumTailOperand(op.Evaluate(acc, Value(b)), op2, c, pc, rest);
    }
  }

  /** An operand that binds at least as tightly as a product is read as a product. */
  lemma {:induction false} ParseProductOperand(e: Expression, parenthesise: bool, rest: seq<Token>)
    requires ExactDivisions(e) && (parenthesise || Priority(e) >= High)
    ensures WellFormed(e) && ParseProduct(OperandTokens(e, parenthesise) + rest) == ProductTail(Value(e), rest)
    decreases e, if parenthesise then 1 else 0, 2
  {
    if parenthesise {
      ParseBracketed(e, rest);
    } else if e.Leaf? {
      DropFirst(Num(e.number), rest);
    } else {
      var Node(b, op, c) := e;
      var pb, pc := LeftParenthesised(b, op), RightParenthesised(c, op);
      var tail := [Sym(op)] + (OperandTokens(c, pc) + rest);
      TokensNode(e, rest);
      ParseProductOperand(b, pb, tail);
      ProductTailOperand(Value(b), op, c, pc, rest);
    }
  }

  /** After a running product, an operator of high priority and an operand apply the
      operator to the product and the operand's value. */
  lemma {:induction false} ProductTailOperand(acc: int, op: Operator, e: Expression, parenthesise: bool, rest: seq<Token>)
    requires op.Priority() == High && ExactDivisions(e) && (parenthesise || Priority(e) >= High)
    requires !parenthesise && e.Node? ==> op == Multiply
    requires op == Divide ==> WellFormed(e) && Value(e) != 0
    ensures WellFormed(e)
    ensures ProductTail(acc, [Sym(op)] + (OperandTokens(e, parenthesise) + rest)) == ProductTail(op.Evaluate(acc, Value(e)), rest)
    decreases e, if parenthesise then 1 else 0, 2
  {
    DropFirst(Sym(op), OperandTokens(e, parenthesise) + rest);
    if parenthesise {
      ParseBracketed(e, rest);
    } else if e.Leaf? {
      DropFirst(Num(e.number), rest);
    } else {
      var Node(b, op2, c) := e;
      var pb, pc := LeftParenthesised(b, op2), RightParenthesised(c, op2);
      var tail := [Sym(op2)] + (OperandTokens(c, pc) + rest);
      TokensNode(e, rest);
      ProductTailOperand(acc, op, b, pb, tail);
      ProductTailOperand(acc * Value(b), op2, c, pc, rest);
      Reassociate(acc, op2, Value(b), Value(c));
    }
  }

  lemma DropFirst<T>(x: T, s: seq<T>)
    ensures ([x] + s)[1..] == s
  {
  }

  /** Multiplying before an exact division gives the same as multiplying after it. */
  lemma Reassociate(acc: int, op: Operator, b: int, c: int)
    requires op.Priority() == High && (op == Divide ==> c != 0 && b % c == 0)
    ensures op.Evaluate(acc * b, c) == acc * op.Evaluate(b, c)
  {
    if op == Divide {
      var q := TruncatedDiv(b, c);
      assert q * c == b;
      assert acc * b == (acc * q) * c;
      ExactMultiple(acc * q, c);
      ExactMultiple(q, c);
    } else {
      assert (acc * b) * c == acc * (b * c);
    }
  }

  lemma ExactMultiple(k: int, c: int)
    requires c != 0
    ensures TruncatedDiv(k * c, c) == k
  {
    var q := TruncatedDiv(k * c, c);
    Distribute(k, q, c);
    if k - q != 0 {
      ProductAtLeastFactor(k - q, c);
    }
  }

  lemma Distribute(k: int, q: int, c: int)
    ensures k * c - q * c == (k - q) * c
  {
  }

  /** The text of an expression with natural leaves and exact divisions reads back as the
      expression's value. */
  lemma RenderReadsBack(e: Expression)
    requires NaturalLeaves(e) && ExactDivisions(e)
    ensures WellFormed(e) && Read(Render(e)) == Some(Value(e))
  {
    LexRender(e, []);
    assert Render(e) + [] == Render(e) && Tokens(e) + [] == Tokens(e);
    ParseSumOperand(e, false, []);
  }

  /** An admissible expression has natural leaves and exact divisions. */
  lemma {:induction false} AdmissiblePrintable(e: Expression)
    requires Admissible(e)
    ensures NaturalLeaves(e) && ExactDivisions(e)
  {
    if e.Node? {
      AdmissiblePrintable(e.left);
      AdmissiblePrintable(e.right);
    }
  }

  /** The solution's text reads back as the solution's value. */
  lemma SolutionReadsBack(target: int, numbers: seq<int>)
    requires forall n <- numbers :: n > 0
    requires FindSolution(target, numbers).Some?
    ensures Read(Render(FindSolution(target, numbers).value)) == Some(Value(FindSolution(target, numbers).value))
  {
    var e := FindSolution(target, numbers).value;
    SolutionAdmissible(target, numbers);
    AdmissiblePrintable(e);
    RenderReadsBack(e);
  }

  /** The numbers in the tokens, in order. */
  function NumberTokens(ts: seq<Token>): seq<int> {
    if ts == [] then []
    else (if ts[0].Num? then [ts[0].value] else []) + NumberTokens(ts[1..])
  }

  lemma {:induction false} NumberTokensAppend(a: seq<Token>, b: seq<Token>)
    ensures NumberTokens(a + b) == NumberTokens(a) + NumberTokens(b)
  {
    if a == [] {
      assert a + b == b;
    } else {
      assert (a + b)[0] == a[0] && (a + b)[1..] == a[1..] + b;
      NumberTokensAppend(a[1..], b);
    }
  }

  /** The text lists the expression's numbers in order: left to right, the numbers printed
      are the numbers the expression consumes. */
  lemma {:induction false} TokensListNumbers(e: Expression)
    ensures NumberTokens(Tokens(e)) == Numbers(e)
  {
    match e
    case Leaf(n) =>
    case Node(l, op, r) =>
      TokensListNumbers(l);
      TokensListNumbers(r);
      OperandNumbers(l, LeftParenthesised(l, op));
      OperandNumbers(r, RightParenthesised(r, op));
      NumberTokensAppend(OperandTokens(l, LeftParenthesised(l, op)) + [Sym(op)], OperandTokens(r, RightParenthesised(r, op)));
      NumberTokensAppend(OperandTokens(l, LeftParenthesised(l, op)), [Sym(op)]);
  }

  lemma OperandNumbers(e: Expression, parenthesise: bool)
    ensures NumberTokens(OperandTokens(e, parenthesise)) == NumberTokens(Tokens(e))
  {
    if parenthesise {
      NumberTokensAppend([Open] + Tokens(e), [Close]);
      NumberTokensAppend([Open], Tokens(e));
    }
  }
}

=== FILE: rendering.dfy ===
/** The text of an expression (`Expression.toString`): a number in decimal, an operation
    as its left operand, its symbol and its right operand separated by single spaces, with
    an operand in brackets only where the operator's priority demands it. */
module Rendering {
  import opened Expressions

  predicate IsDigit(c: char) {
    '0' <= c <= '9'
  }

  predicate AllDigits(s: string) {
    forall c <- s :: IsDigit(c)
  }

  function DigitChar(d: nat): (c: char)
    requires d < 10
    ensures IsDigit(c) && c as int - '0' as int == d
  {
    ('0' as int + d) as char
  }

  /** The number a string of decimal digits denotes, most significant digit first. */
  function DigitsValue(s: string): nat
    requires AllDigits(s)
  {
    if s == [] then 0
    else
      assert s[|s| - 1] in s;
      DigitsValue(s[..|s| - 1]) * 10 + (s[|s| - 1] as int - '0' as int)
  }

  /** `%d` for a non-negative number: the shortest decimal numeral, which reads back as n. */
  function DecimalDigits(n: nat): (s: string)
    ensures |s| >= 1 && AllDigits(s) && DigitsValue(s) == n
    ensures |s| > 1 ==> s[0] != '0'
  {
    if n < 10 then [DigitChar(n)]
    else
      var s := DecimalDigits(n / 10) + [DigitChar(n % 10)];
      assert s[..|s| - 1] == DecimalDigits(n / 10);
      s
  }

  /** `%d`: a minus sign before the digits of a negative number. */
  function Decimal(n: int): (s: string)
    ensures n >= 0 ==> |s| >= 1 && AllDigits(s) && DigitsValue(s) == n && (|s| > 1 ==> s[0] != '0')
    ensures n < 0 ==> |s| >= 2 && s[0] == '-' && AllDigits(s[1..]) && DigitsValue(s[1..]) == -n
                      && (|s| > 2 ==> s[1] != '0')
  {
    if n < 0 then
      var d := DecimalDigits(-n);
      assert ("-" + d)[1..] == d;
      "-" + d
    else DecimalDigits(n)
  }

  /** A left operand is bracketed when it binds less tightly than the operator. */
  predicate LeftParenthesised(left: Expression, op: Operator) {
    Priority(left) < op.Priority()
  }

  /** A right operand is bracketed when it binds less tightly than the operator, or as
      tightly under an operator that is not commutative. */
  predicate RightParenthesised(right: Expression, op: Operator) {
    Priority(right) < op.Priority() || (Priority(right) == op.Priority() && !op.Commutative())
  }

  /** `toString`. */
  function Render(e: Expression): (s: string)
    ensures |s| >= 1
    decreases e, 0
  {
    match e
    case Leaf(n) => Decimal(n)
    case Node(l, op, r) =>
      RenderOperand(l, LeftParenthesised(l, op)) + " " + op.Symbol() + " "
      + RenderOperand(r, RightParenthesised(r, op))
  }

  /** `parenthesisedIfNecessary`. */
  function RenderOperand(e: Expression, parenthesise: bool): (s: string)
    ensures |s| >= 1
    decreases e, 1
  {
    if parenthesise then "(" + Render(e) + ")" else Render(e)
  }
}

=== FILE: search.dfy ===
/** The whole search (`findSolution`): every selection of the source numbers, every
    expression over each selection, reduced to the best one. */
module Search {
  import opened Wrappers
  import opened Expressions
  import opened Combiners
  import opened Permutations
  import opened Builder
  import opened Selector

  /** A solver instance: the target and the source numbers. */
  datatype Solver = Solver(target: int, numbers: seq<int>)

  predicate AllLeaves(s: seq<Expression>) {
    forall e <- s :: e.Leaf?
  }

  /** `IntStream.of(numbers).mapToObj(Expression::new)`. */
  function Leaves(numbers: seq<int>): (ls: seq<Expression>)
    ensures |ls| == |numbers| && AllLeaves(ls) && AllWellFormed(ls)
    ensures forall k :: 0 <= k < |numbers| ==> ls[k] == Leaf(numbers[k])
  {
    seq(|numbers|, k requires 0 <= k < |numbers| => Leaf(numbers[k]))
  }

  lemma LeavesValues(numbers: seq<int>)
    ensures Values(Leaves(numbers)) == numbers && NumbersOf(Leaves(numbers)) == numbers
  {
    LeafNumbers(Leaves(numbers));
  }

  /** `flatMap(this::expressions)` over the selections. */
  function Candidates(perms: seq<seq<Expression>>): (cs: seq<Expression>)
    requires forall p <- perms :: AllPositive(p)
    ensures AllPositive(cs) && AllWellFormed(cs)
    ensures forall p, e :: p in perms && e in ExpressionsFor(p) ==> e in cs
  {
    if perms == [] then []
    else ExpressionsFor(perms[0]) + Candidates(perms[1..])
  }

  /** Every candidate is an expression over one of the selections. */
  lemma {:induction false} CandidateSource(perms: seq<seq<Expression>>, e: Expression) returns (p: seq<Expression>)
    requires forall p <- perms :: AllPositive(p)
    requires e in Candidates(perms)
    ensures p in perms && AllPositive(p) && e in ExpressionsFor(p)
  {
    if e in ExpressionsFor(perms[0]) {
      p := perms[0];
    } else {
      p := CandidateSource(perms[1..], e);
    }
  }

  /** A selection of the leaves of positive numbers holds positive leaves only. */
  lemma SelectionOfLeaves(numbers: seq<int>, p: seq<Expression>)
    requires forall n <- numbers :: n > 0
    requires p in Permute(Leaves(numbers))
    ensures AllLeaves(p) && AllPositive(p)
  {
    var ls := Leaves(numbers);
    PermuteSelects(ls);
    forall x <- p ensures x.Leaf? && Positive(x) {
      assert x in multiset(p);
      assert x in ls;
      var k :| 0 <= k < |ls| && ls[k] == x;
      assert numbers[k] in numbers;
    }
  }

  /** The candidate expressions for a set of positive source numbers. */
  function AllCandidates(numbers: seq<int>): (cs: seq<Expression>)
    requires forall n <- numbers :: n > 0
    ensures AllPositive(cs) && AllWellFormed(cs)
  {
    var perms := Permute(Leaves(numbers));
    SelectionsPositive(numbers);
    Candidates(perms)
  }

  lemma SelectionsPositive(numbers: seq<int>)
    requires forall n <- numbers :: n > 0
    ensures forall p <- Permute(Leaves(numbers)) :: AllPositive(p)
  {
    forall p <- Permute(Leaves(numbers)) ensures AllPositive(p) {
      SelectionOfLeaves(numbers, p);
    }
  }

  /** `findSolution`. */
  function FindSolution(target: int, numbers: seq<int>): (r: Option<Expression>)
    requires forall n <- numbers :: n > 0
    ensures Settled(target, r)
  {
    Reduce(target, AllCandidates(numbers))
  }

  /** Every candidate consumes a sub-multiset of the source numbers. */
  lemma CandidateNumbers(numbers: seq<int>, e: Expression)
    requires forall n <- numbers :: n > 0
    requires e in AllCandidates(numbers)
    ensures multiset(Numbers(e)) <= multiset(numbers)
  {
    var ls := Leaves(numbers);
    var perms := Permute(ls);
    SelectionsPositive(numbers);
    var p := CandidateSource(perms, e);
    PermuteSelects(ls);
    NumbersOfSubMultiset(p, ls);
    LeavesValues(numbers);
  }

  /** The result of the search: absent exactly when no candidate comes within 10 of the
      target; otherwise a candidate within 10, using source numbers no more often than they
      are given, and at least as good as every other candidate within 10. */
  lemma FindSolutionCorrect(target: int, numbers: seq<int>)
    requires forall n <- numbers :: n > 0
    ensures var r := FindSolution(target, numbers);
      && (r.None? <==> forall e <- AllCandidates(numbers) :: !Qualifies(target, e))
      && (r.Some? ==>
        && r.value in AllCandidates(numbers)
        && Qualifies(target, r.value)
        && multiset(Numbers(r.value)) <= multiset(numbers)
        && forall e <- AllCandidates(numbers) :: Qualifies(target, e) ==> AtLeastAsGood(target, r.value, e))
  {
    var r := FindSolution(target, numbers);
    if r.Some? {
      CandidateNumbers(numbers, r.value);
    }
  }

  /** An expression a player could write under the solver's rules: positive source numbers
      combined only in ways the combiners accept. */
  predicate Admissible(e: Expression) {
    match e
    case Leaf(n) => n > 0
    case Node(l, op, r) =>
      Admissible(l) && Admissible(r) && Positive(l) && Positive(r) && Combine(op, l, r).Some?
  }

  lemma {:induction false} AdmissiblePositive(e: Expression)
    requires Admissible(e)
    ensures Positive(e)
  {
    if e.Node? {
      CombinedValue(e.op, e.left, e.right);
    }
  }

  /** Everything the builder yields from positive leaves is admissible. */
  lemma {:induction false} ExpressionsAdmissible(p: seq<Expression>, e: Expression)
    requires AllLeaves(p) && AllPositive(p) && e in ExpressionsFor(p)
    ensures Admissible(e)
    decreases |p|
  {
    if |p| == 1 {
      assert e in p;
    } else {
      var i := ExpressionsSound(p, e);
      ExpressionsAdmissible(p[..i], e.left);
      ExpressionsAdmissible(p[i..], e.right);
    }
  }

  /** The solution, when there is one, is admissible. */
  lemma SolutionAdmissible(target: int, numbers: seq<int>)
    requires forall n <- numbers :: n > 0
    requires FindSolution(target, numbers).Some?
    ensures Admissible(FindSolution(target, numbers).value)
  {
    var e := FindSolution(target, numbers).value;
    SelectionsPositive(numbers);
    var p := CandidateSource(Permute(Leaves(numbers)), e);
    SelectionOfLeaves(numbers, p);
    ExpressionsAdmissible(p, e);
  }

  /** The combiners look only at the operand values. */
  lemma CombineByValue(op: Operator, l: Expression, r: Expression, l': Expression, r': Expression)
    requires Positive(l) && Positive(r) && Positive(l') && Positive(r')
    requires Value(l) == Value(l') && Value(r) == Value(r')
    requires Combine(op, l, r).Some?
    ensures Combine(op, l', r').Some? && Value(Combine(op, l', r').value) == Value(Combine(op, l, r).value)
  {
  }

  /** Discarding expressions whose value was already met loses no value: for every
      admissible expression over exactly the leaves p, the builder yields one with the same
      value. */
  lemma {:induction false} BuilderComplete(p: seq<Expression>, e: Expression) returns (e': Expression)
    requires AllLeaves(p) && AllPositive(p) && Admissible(e) && Numbers(e) == Values(p)
    ensures e' in ExpressionsFor(p) && Value(e') == Value(e) && Count(e') == Count(e)
  {
    AdmissiblePositive(e);
    LeafNumbers(p);
    if e.Leaf? {
      assert p == [e];
      e' := e;
    } else {
      var i := SplitLeaves(p, e);
      var l' := BuilderComplete(p[..i], e.left);
      var r' := BuilderComplete(p[i..], e.right);
      CombineByValue(e.op, e.left, e.right, l', r');
      ExpressionsComplete(p, i, l', e.op, r');
      var c := Combine(e.op, l', r').value;
      e' :| e' in ExpressionsFor(p) && Value(e') == Value(c);
      assert Numbers(e') == NumbersOf(p);
    }
  }

  /** The leaves under a node's left operand are a prefix of p, those under its right
      operand the rest. */
  lemma SplitLeaves(p: seq<Expression>, e: Expression) returns (i: nat)
    requires AllLeaves(p) && AllPositive(p) && e.Node? && Numbers(e) == Values(p)
    ensures 1 <= i < |p|
    ensures Numbers(e.left) == Values(p[..i]) && Numbers(e.right) == Values(p[i..])
    ensures AllLeaves(p[..i]) && AllPositive(p[..i]) && AllLeaves(p[i..]) && AllPositive(p[i..])
  {
    i := |Numbers(e.left)|;
    assert Numbers(e) == Numbers(e.left) + Numbers(e.right);
    ValuesTake(p, i);
    ValuesDrop(p, i);
  }

  /** No admissible expression over the source numbers beats the solution: if one comes
      within 10 of the target, a solution exists and is at least as good. */
  lemma FindSolutionOptimal(target: int, numbers: seq<int>, e: Expression)
    requires forall n <- numbers :: n > 0
    requires Admissible(e) && multiset(Numbers(e)) <= multiset(numbers)
    requires Qualifies(target, e)
    ensures FindSolution(target, numbers).Some?
    ensures AtLeastAsGood(target, FindSolution(target, numbers).value, e)
  {
    var e' := CandidateFor(numbers, e);
    var r := Reduce(target, AllCandidates(numbers));
    assert AtLeastAsGood(target, r.value, e');
  }

  /** When the target is itself a source number, the solution hits it exactly with a single
      number. */
  lemma TargetAmongNumbers(target: int, numbers: seq<int>)
    requires forall n <- numbers :: n > 0
    requires target in numbers
    ensures FindSolution(target, numbers).Some?
    ensures Difference(target, FindSolution(target, numbers).value) == 0
    ensures Count(FindSolution(target, numbers).value) == 1
  {
    var leaf := Leaf(target);
    assert multiset(Numbers(leaf)) <= multiset(numbers);
    FindSolutionOptimal(target, numbers, leaf);
  }

  /** Every admissible expression over the source numbers has a candidate with the same
      value using as many numbers. */
  lemma CandidateFor(numbers: seq<int>, e: Expression) returns (e': Expression)
    requires forall n <- numbers :: n > 0
    requires Admissible(e) && multiset(Numbers(e)) <= multiset(numbers)
    ensures Positive(e) && e' in AllCandidates(numbers) && Value(e') == Value(e) && Count(e') == Count(e)
  {
    AdmissiblePositive(e);
    var ls := Leaves(numbers);
    LeavesValues(numbers);
    var p := Emitted(ls, Numbers(e));
    SelectionOfLeaves(numbers, p);
    e' := BuilderComplete(p, e);
    SelectionsPositive(numbers);
    assert AllCandidates(numbers) == Candidates(Permute(ls));
  }
}

=== FILE: selector.dfy ===
/** Choosing the best solution (`findBetter`, the `evaluator` it is wrapped in, and the
    `reduce(null, …)` over all candidate expressions). A candidate qualifies when its value
    is within 10 of the target; among qualifying candidates a smaller difference wins, then
    fewer numbers used, then the one met first. */
module Selector {
  import opened Wrappers
  import opened Expressions

  /** The largest difference from the target that still counts as a solution. */
  const Tolerance: int := 10

  /** `differenceFrom`: how far the value lies from the target. */
  function Difference(target: int, e: Expression): nat
    requires WellFormed(e)
  {
    Abs(target - Value(e))
  }

  /** How many source numbers the expression consumes. */
  function Count(e: Expression): nat {
    |Numbers(e)|
  }

  predicate Qualifies(target: int, e: Expression)
    requires WellFormed(e)
  {
    Difference(target, e) <= Tolerance
  }

  /** `a` is at least as good as `b`: nearer the target, or as near with no more numbers. */
  predicate AtLeastAsGood(target: int, a: Expression, b: Expression)
    requires WellFormed(a) && WellFormed(b)
  {
    Difference(target, a) < Difference(target, b)
    || (Difference(target, a) == Difference(target, b) && Count(a) <= Count(b))
  }

  /** A nullable expression that is either absent or a well-formed expression. */
  predicate Present(x: Option<Expression>) {
    x.Some? ==> WellFormed(x.value)
  }

  predicate QualifiesOpt(target: int, x: Option<Expression>)
    requires Present(x)
  {
    x.Some? && Qualifies(target, x.value)
  }

  /** `findBetter`: an absent argument counts as 11 away. The result is absent when neither
      argument qualifies, the only qualifying one when just one does, and otherwise the better
      of the two, the first argument winning a tie. */
  function FindBetter(target: int, e1: Option<Expression>, e2: Option<Expression>): (r: Option<Expression>)
    requires Present(e1) && Present(e2)
    ensures Present(r)
    ensures r.None? <==> !QualifiesOpt(target, e1) && !QualifiesOpt(target, e2)
    ensures QualifiesOpt(target, e1) && !QualifiesOpt(target, e2) ==> r == e1
    ensures !QualifiesOpt(target, e1) && QualifiesOpt(target, e2) ==> r == e2
    ensures QualifiesOpt(target, e1) && QualifiesOpt(target, e2) ==>
      r == if AtLeastAsGood(target, e1.value, e2.value) then e1 else e2
  {
    var diff1 := if e1.None? then Tolerance + 1 else Difference(target, e1.value);
    var diff2 := if e2.None? then Tolerance + 1 else Difference(target, e2.value);
    if diff1 > Tolerance && diff2 > Tolerance then None
    else if diff1 < diff2 then e1
    else if diff2 < diff1 then e2
    else if |Numbers(e1.value)| <= |Numbers(e2.value)| then e1
    else e2
  }

  /** The nullable result is absent or a qualifying expression. */
  predicate Settled(target: int, x: Option<Expression>) {
    Present(x) && (x.None? || Qualifies(target, x.value))
  }

  /** `findBetter` is associative, so the grouping a parallel reduction picks is immaterial. */
  lemma FindBetterAssociative(target: int, x: Option<Expression>, y: Option<Expression>, z: Option<Expression>)
    requires Present(x) && Present(y) && Present(z)
    ensures FindBetter(target, FindBetter(target, x, y), z) == FindBetter(target, x, FindBetter(target, y, z))
  {
  }

  /** Absent is the identity of `findBetter` on settled arguments. */
  lemma FindBetterIdentity(target: int, x: Option<Expression>)
    requires Settled(target, x)
    ensures FindBetter(target, None, x) == x && FindBetter(target, x, None) == x
  {
  }

  /** `reduce(null, evaluator(target))` over the candidates in encounter order. The result
      is absent exactly when no candidate qualifies; otherwise it is a qualifying candidate
      at least as good as every qualifying candidate. */
  function Reduce(target: int, s: seq<Expression>): (r: Option<Expression>)
    requires AllWellFormed(s)
    ensures Settled(target, r)
    ensures r.None? <==> forall e <- s :: !Qualifies(target, e)
    ensures r.Some? ==> r.value in s && forall e <- s :: Qualifies(target, e) ==> AtLeastAsGood(target, r.value, e)
  {
    if s == [] then None
    else
      var init, last := s[..|s| - 1], s[|s| - 1];
      assert s == init + [last];
      FindBetter(target, Reduce(target, init), Some(last))
  }

  /** Reducing two consecutive parts and combining the results is reducing the whole:
      the split a parallel stream makes does not change the solution. */
  lemma {:induction false} ReduceAppend(target: int, a: seq<Expression>, b: seq<Expression>)
    requires AllWellFormed(a) && AllWellFormed(b)
    ensures AllWellFormed(a + b)
    ensures FindBetter(target, Reduce(target, a), Reduce(target, b)) == Reduce(target, a + b)
    decreases |b|
  {
    if b == [] {
      assert a + b == a;
      FindBetterIdentity(target, Reduce(target, a));
    } else {
      var init, last := b[..|b| - 1], b[|b| - 1];
      ReduceAppend(target, a, init);
      assert (a + b)[..|a + b| - 1] == a + init;
      FindBetterAssociative(target, Reduce(target, a), Reduce(target, init), Some(last));
    }
  }

  /** Of the candidates at least as good as all others, the one met first is the result. */
  lemma {:induction false} ReduceFirst(target: int, s: seq<Expression>, k: nat)
    requires AllWellFormed(s) && k < |s| && Qualifies(target, s[k])
    requires forall e <- s :: Qualifies(target, e) ==> AtLeastAsGood(target, s[k], e)
    requires forall j :: 0 <= j < k ==> !Qualifies(target, s[j]) || !AtLeastAsGood(target, s[j], s[k])
    ensures Reduce(target, s) == Some(s[k])
    decreases |s|
  {
    var init, last := s[..|s| - 1], s[|s| - 1];
    assert s == init + [last];
    if k < |s| - 1 {
      ReduceFirst(target, init, k);
    } else {
      var r := Reduce(target, init);
      if r.Some? {
        var j :| 0 <= j < |init| && init[j] == r.value;
      }
    }
  }

  /** Reordering or repeating the candidates may change which solution is chosen, but not
      how close it is or how many numbers it uses. */
  lemma ReduceReorder(target: int, s: seq<Expression>, t: seq<Expression>)
    requires AllWellFormed(s) && forall e :: e in s <==> e in t
    ensures AllWellFormed(t)
    ensures Reduce(target, s).None? <==> Reduce(target, t).None?
    ensures Reduce(target, s).Some? ==>
      Difference(target, Reduce(target, s).value) == Difference(target, Reduce(target, t).value)
      && Count(Reduce(target, s).value) == Count(Reduce(target, t).value)
  {
  }
}

=== FILE: validation.dfy ===
/** Checking the arguments of a game (`instance(int[])`, `validateSourceNumber`,
    `validateSourceNumberCount`): the first number is the target, the rest the source
    numbers. */
module Validation {
  import opened Wrappers
  import opened Search

  /** The argument rejections; each is an `IllegalArgumentException` in the program. */
  datatype ValidationError =
    | TargetOutOfRange
    | InvalidSourceNumber(number: int)
    | TooManySmall(number: int)
    | TooManyLarge(number: int)

  const MinTarget: int := 100
  const MaxTarget: int := 999

  /** `validateSourceNumber` accepts n. */
  predicate ValidSourceNumber(n: int) {
    !(n < 1 || n > 100 || (n > 10 && n % 25 != 0))
  }

  /** The accepted source numbers are the small numbers 1 to 10 and the large numbers 25,
      50, 75 and 100. */
  lemma ValidSourceNumberMeaning(n: int)
    ensures ValidSourceNumber(n) <==> 1 <= n <= 10 || n == 25 || n == 50 || n == 75 || n == 100
  {
    if 10 < n <= 100 && n % 25 == 0 {
      var q := n / 25;
      assert n == 25 * q;
      assert 1 <= q <= 4;
    }
  }

  /** The count the `groupingBy` collector computes for n. */
  function Occurrences(s: seq<int>, n: int): (c: nat)
    ensures c == multiset(s)[n]
  {
    if s == [] then 0
    else
      assert s == [s[0]] + s[1..];
      (if s[0] == n then 1 else 0) + Occurrences(s[1..], n)
  }

  /** `validateSourceNumberCount` accepts `occurrences` of `number`: a small number at most
      twice, a large number at most once. */
  predicate CountAllowed(number: int, occurrences: nat) {
    !(number <= 10 && occurrences > 2) && !(number > 10 && occurrences > 1)
  }

  /** The position of the first source number that `validateSourceNumber` rejects, or the
      length when there is none. */
  function FirstInvalid(numbers: seq<int>): (k: nat)
    ensures k <= |numbers|
    ensures forall j :: 0 <= j < k ==> ValidSourceNumber(numbers[j])
    ensures k < |numbers| ==> !ValidSourceNumber(numbers[k])
  {
    if numbers == [] || !ValidSourceNumber(numbers[0]) then 0
    else 1 + FirstInvalid(numbers[1..])
  }

  /** The position, from i on, of the first source number that occurs more often than its
      kind allows, or the length when there is none. */
  function FirstOverused(numbers: seq<int>, i: nat): (k: nat)
    requires i <= |numbers|
    ensures i <= k <= |numbers|
    ensures forall j :: i <= j < k ==> CountAllowed(numbers[j], multiset(numbers)[numbers[j]])
    ensures k < |numbers| ==> !CountAllowed(numbers[k], multiset(numbers)[numbers[k]])
    decreases |numbers| - i
  {
    if i == |numbers| || !CountAllowed(numbers[i], Occurrences(numbers, numbers[i])) then i
    else FirstOverused(numbers, i + 1)
  }

  /** `instance(int[])`: a solver for the target nums[0] and the source numbers nums[1..],
      or the first reason to reject them. */
  function Validate(nums: seq<int>): (r: Result<Solver, ValidationError>)
    requires |nums| >= 1
    ensures r.Success? <==>
      && MinTarget <= nums[0] <= MaxTarget
      && (forall n <- nums[1..] :: ValidSourceNumber(n))
      && (forall n <- nums[1..] :: CountAllowed(n, multiset(nums[1..])[n]))
    ensures r.Success? ==> r.value == Solver(nums[0], nums[1..])
    ensures r == Failure(TargetOutOfRange) <==> !(MinTarget <= nums[0] <= MaxTarget)
    ensures r.Failure? && r.error.InvalidSourceNumber? ==>
      && MinTarget <= nums[0] <= MaxTarget
      && (exists k :: 0 <= k < |nums| - 1 && nums[1..][k] == r.error.number
           && !ValidSourceNumber(nums[1..][k]) && forall j :: 0 <= j < k ==> ValidSourceNumber(nums[1..][j]))
    ensures r.Failure? && (r.error.TooManySmall? || r.error.TooManyLarge?) ==>
      && MinTarget <= nums[0] <= MaxTarget
      && (forall n <- nums[1..] :: ValidSourceNumber(n))
      && r.error.number in nums[1..]
    ensures r.Failure? && r.error.TooManySmall? ==> r.error.number <= 10 && multiset(nums[1..])[r.error.number] > 2
    ensures r.Failure? && r.error.TooManyLarge? ==> r.error.number > 10 && multiset(nums[1..])[r.error.number] > 1
  {
    var target, numbers := nums[0], nums[1..];
    if target < MinTarget || target > MaxTarget then Failure(TargetOutOfRange)
    else
      var k := FirstInvalid(numbers);
      if k < |numbers| then Failure(InvalidSourceNumber(numbers[k]))
      else
        var j := FirstOverused(numbers, 0);
        if j < |numbers| then
          var n := numbers[j];
          if n <= 10 then Failure(TooManySmall(n)) else Failure(TooManyLarge(n))
        else
          Success(Solver(target, numbers))
  }

  /** A validated game has only positive source numbers, so the search applies to it. */
  lemma ValidatedPositive(nums: seq<int>)
    requires |nums| >= 1 && Validate(nums).Success?
    ensures forall n <- Validate(nums).value.numbers :: n > 0
  {
  }
}

=== FILE: wrappers.dfy ===
/** Option and Result: the model's stand-ins for Java's `null` results and for the
    validators' IllegalArgumentException. */
module Wrappers {

  datatype Option<+T> = None | Some(value: T)

  datatype Result<+R, +E> = Success(value: R) | Failure(error: E)
}
